=== FILE: README.md ===
# snowid TSID generator — Dafny model

A model of the core of snowid: a generator of 64-bit time-sorted unique identifiers
(TSIDs). Each identifier packs three fields, from high bits to low:

- a 42-bit timestamp, in milliseconds since a custom epoch;
- a node field of `node_bits` bits;
- a sequence field of `22 - node_bits` bits.

The model covers three things:

- the configuration and its builder;
- the bit layout the configuration derives, with packing (`create_tsid`) and unpacking
  (`extract_*`);
- the `generate` loop, as a step function over clock readings.

Modules, one per file:

| file | module | contents |
|---|---|---|
| `outcome.dfy` | `Outcome` | `Result` with a `Panic(Fault)` case for Rust's panics |
| `bits.dfy` | `Bits` | `u8`/`u16`/`u64` as bounded naturals; `&`, `\|`, `<<`, `>>`, `as u16` and the wrapping `fetch_add` written out; the arithmetic facts the layout proofs use |
| `config.dfy` | `Config` | `TsidConfig`, `Default`, the builder, and chains of builder calls |
| `layout.dfy` | `Layout` | `BitConfig`, `create_bit_config`, `create_tsid` as `Pack`, the `extract_*` functions, round trips and ordering |
| `generator.dfy` | `Generator` | `TsidGenerator`, `with_config`, `new`, the accessors, one loop iteration `Step`, and `Generate` |
| `trace.dfy` | `Trace` | runs of loop iterations: monotonicity, node preservation, uniqueness across nodes, and counter wrap-around |

Modelling decisions:

- **Integers.** Rust's `u8`, `u16` and `u64` are subtypes of `nat`.
  - `&` and `|` are defined bit by bit.
  - `<<` on a word drops the bits that pass the top.
  - `as u16` truncates.
  - `fetch_add(1)` on the `u16` counter wraps from 65535 to 0.
- **Panics.** A panicking call returns `Panic(fault)`.
- **Shift overflow.** The masks in `create_bit_config` are `u16` values computed as
  `(1 << bits) - 1`. The model follows Rust's checked semantics (debug and test builds),
  where a shift by 16 or more panics.
  - The builder accepts node widths 1 through 20.
  - Only widths 7 through 15 survive `with_config`: for the others, the node or the sequence width is 16 or more.
  - The builder's documentation promises 1–20; the model follows the code.
- **`BitConfig` fields.** `BitConfig` keeps five of the source's seven fields. `max_sequence` and `max_node` are always copies of `sequence_mask` and `node_mask`, so the masks stand in for them.
- **Sequential model.** On one thread, the compare-and-swap in `generate` always succeeds.
  - `Step` is one pass through the loop body, with the clock reading as a parameter. It returns the next state and either an emitted identifier or a retry.
  - `Generate` steps through a finite sequence of readings until one pass emits. If the readings run out first, it reports `Spinning`.
  - `Trace.Run` steps through every reading and collects everything emitted.

## Model

| member | source | states |
|---|---|---|
| Bits.WrappingIncU16 | src/lib.rs:199 | the wrapping `fetch_add(1)` on the `u16` counter: below 65535 it adds one, and 65535 becomes 0 |
| Config.Default | src/lib.rs:20-28 | the default configuration has 10 node bits, 12 sequence bits and epoch 1704067200000; it is well formed and 42 + 10 + 12 = 64 |
| Config.NodeBits | src/lib.rs:55-60 | succeeds exactly when 1 <= bits <= 20 and otherwise panics with NodeBitsOutOfRange; on success the node width is `bits`, node plus sequence width is 22, and the epoch is unchanged |
| Config.CustomEpoch | src/lib.rs:69-72 | sets the epoch and leaves both widths unchanged |
| Config.Builder | src/lib.rs:38-42 | `TsidConfigBuilder::new` (and `TsidConfig::builder`, src/lib.rs:85-87, which calls it) starts from a well-formed configuration with 10 node bits, 12 sequence bits and the 2024-01-01 epoch |
| Config.Build | src/lib.rs:78-80 | no contract of its own: `build` hands back the configuration the builder holds; `Config.BuilderChainWellFormed` states which configuration that is after any chain of calls |
| Config.BuilderChainWellFormed | src/lib.rs:36-80 | from a well-formed starting configuration, any chain of builder calls succeeds exactly when every `node_bits` argument is in 1..20; the built configuration is well formed, its node width is the last one set and its epoch is the last one set |
| Layout.ShlU16Checked | src/lib.rs:94-95 | a `u16` left shift panics with ShiftOverflow exactly when the amount is 16 or more, and equals multiplication by 2^k when nothing passes the top |
| Layout.LowMaskU16 | src/lib.rs:94-95 | `(1 << bits) - 1` on `u16` is 2^bits - 1 for bits < 16 and panics otherwise |
| Layout.LowMask64 | src/lib.rs:96 | `(1u64 << k) - 1` is 2^k - 1 |
| Layout.CreateBitConfig | src/lib.rs:90-107 | the layout derivation succeeds exactly when 7 <= node_bits <= 15 and panics with ShiftOverflow otherwise; on success node_shift = sequence_bits, timestamp_shift = 22, node mask 2^node_bits - 1, sequence mask 2^sequence_bits - 1 |
| Layout.NarrowOrWideNodeBitsPanic | src/lib.rs:55-107 | every width the builder accepts below 7 or above 15 yields a configuration whose layout derivation panics |
| Layout.DefaultLayout | src/lib.rs:90-107 | the default configuration gives node mask 1023, sequence mask 4095, node shift 12 and timestamp shift 22 |
| Layout.WideNodeLayout | src/lib.rs:277-285 | node width 12 gives node mask 4095 and sequence mask 1023 |
| Layout.ExtractTimestamp | src/lib.rs:236-238 | the extracted timestamp never exceeds the timestamp mask |
| Layout.ExtractNode | src/lib.rs:242-244 | the extracted node never exceeds the node mask |
| Layout.ExtractSequence | src/lib.rs:248-250 | the extracted sequence never exceeds the sequence mask |
| Layout.Extract | src/lib.rs:226-232 | every 64-bit word decomposes into three fields, each within its mask |
| Layout.ExtractTimestampArith | src/lib.rs:236-238 | extracting the timestamp is division by 2^22 |
| Layout.ExtractNodeArith | src/lib.rs:242-244 | extracting the node is the digit above the sequence field, modulo 2^node_bits |
| Layout.ExtractSequenceArith | src/lib.rs:248-250 | extracting the sequence is the remainder modulo 2^sequence_bits |
| Layout.Pack | src/lib.rs:219-223 | no contract of its own: `create_tsid`'s masking, shifting and ORing, written out; `Layout.PackArith`, `Layout.ExtractPack` and `Layout.PackExtract` state what it means |
| Layout.PackArith | src/lib.rs:219-223 | a packed identifier is the timestamp (mod 2^42), node and sequence, each cut to its width, as digits in bases 2^node_bits and 2^sequence_bits: the OR of the shifted fields is their sum |
| Layout.PackOffsets | src/lib.rs:219-223 | the same value with the timestamp at bit 22, and the node and sequence below bit 22 |
| Layout.ExtractPack | src/lib.rs:219-250 | unpacking a packed identifier gives back every field cut to its width, for any inputs |
| Layout.RoundTrip | src/lib.rs:600-608 | for fields within their masks, unpacking a packed identifier gives back exactly the timestamp, node and sequence |
| Layout.PackExtract | src/lib.rs:219-250 | the other direction: every 64-bit word is the packing of its own fields, so no bit lies outside the three fields |
| Layout.PackOrder | src/lib.rs:219-223 | with a fixed node within the node mask, and timestamps and sequences within their masks (timestamps below 2^42), packed identifiers order exactly as (timestamp, sequence) order lexicographically |
| Layout.FieldsCoverWord | src/lib.rs:610-626 | the field widths sum to 64, and the three field masks ORed as the layout test forms them cover all 64 bits |
| Generator.WithConfig | src/lib.rs:163-175 | succeeds exactly when 7 <= node_bits <= 15 and node_id < 2^node_bits; panics with ShiftOverflow outside the widths, else with NodeIdOutOfRange; the new generator is valid, keeps the node id and configuration, and starts at timestamp 0 and sequence 0 |
| Generator.TenNodeBitsAcceptsExactly | src/lib.rs:163-166 | with a 10-bit node field, construction succeeds exactly for node ids up to 1023 and otherwise panics with NodeIdOutOfRange |
| Generator.New | src/lib.rs:151-153 | `new` succeeds exactly for node ids up to 1023 and otherwise panics with NodeIdOutOfRange; the generator it returns is valid, keeps the node id and the default configuration, and starts at timestamp 0 and sequence 0 |
| Generator.NewRejectsWideNodeId | src/lib.rs:321-324 | `new` panics with NodeIdOutOfRange for every node id above 1023 |
| Generator.NewInitialState | src/lib.rs:151-153 | `new` accepts every node id up to 1023, keeps it and the default configuration, starts at timestamp 0 and sequence 0, and reports 1023 nodes and 4095 sequences |
| Generator.TwelveNodeBitsInitialState | src/lib.rs:163-175 | with a 12-bit node field, node ids up to 4095 are accepted, with 4095 as the largest node and 1023 as the largest sequence |
| Generator.CustomConfigExample | src/lib.rs:277-285 | `node_bits(12)` then `custom_epoch` builds a configuration that accepts node 1023, with max node 4095 and max sequence 1023 |
| Generator.CreateTsid | src/lib.rs:219-223 | no contract of its own: `create_tsid` with the generator's node id and layout; `Generator.CreateTsidFields` and `Generator.CreateTsidOrder` state what it means |
| Generator.CreateTsidFields | src/lib.rs:219-232 | for a sequence up to the largest sequence, an identifier the generator creates decodes to the timestamp mod 2^42, the generator's own node id and that sequence |
| Generator.CreateTsidOrder | src/lib.rs:219-223 | for timestamps below 2^42 and sequences up to the largest sequence, a generator's identifiers order by timestamp, then by sequence; a timestamp of 2^42 or more is cut by the mask and can break this order |
| Generator.ExtractFromTsid | src/lib.rs:226-232 | the decoded fields are below 2^42, 2^node_bits and 2^sequence_bits |
| Generator.MaxNodeId | src/lib.rs:253-255 | the largest node id is 2^node_bits - 1 |
| Generator.MaxSequence | src/lib.rs:258-260 | the largest sequence is 2^sequence_bits - 1 |
| Generator.Step | src/lib.rs:179-203 | one loop iteration keeps node, configuration and layout, and moves the last timestamp to the larger of it and the reading. A later reading resets the counter and emits sequence 0 at that reading. Otherwise the counter is incremented with wrap-around; the iteration emits exactly when the fetched counter is below the largest sequence, with the last timestamp (never the smaller reading) and the fetched value plus one |
| Generator.StepAdvancesTick | src/lib.rs:184-192 | on a new tick the emitted identifier decodes to the reading mod 2^42, the node id and sequence 0 |
| Generator.StepSameTick | src/lib.rs:197-203 | on the same tick, or with the clock behind, and with a counter below the largest sequence, the emitted identifier decodes to the last timestamp and the counter plus one |
| Generator.Generate | src/lib.rs:178-205 | `generate` keeps the generator valid with the same identity, never lowers the last timestamp, consumes at least one reading when it returns, and leaves the timestamp alone when it only retried |
| Generator.GenerateStopsOnNewTick | src/lib.rs:183-192 | `generate` cannot spin past a reading later than the last timestamp: it returns by that reading at the latest |
| Generator.FirstGenerate | src/lib.rs:302-310 | the first call on a fresh generator with a positive reading returns at once an identifier decoding to (reading mod 2^42, node id, 0), nonzero when the reading fits 42 bits |
| Trace.MaxReading | src/lib.rs:183-198 | the last timestamp after a run is the largest of the old one and the readings |
| Trace.Run | src/lib.rs:178-205 | a run of iterations keeps the generator's identity, never lowers the last timestamp (it ends at the largest reading), and emits at most one identifier per reading |
| Trace.StepBound | src/lib.rs:179-203 | without a wrap, one iteration never lowers the bound (the identifier with the last timestamp and the capped counter); an emitted identifier lies strictly above the old bound and becomes the new one |
| Trace.RunIncreasing | src/lib.rs:577-587 | over a run whose readings fit 42 bits and whose counter never wraps, emitted identifiers strictly increase |
| Trace.ShortRunNoWrap | src/lib.rs:199 | fewer iterations than the distance from the counter to 0xFFFF cannot wrap the counter |
| Trace.FreshGeneratorIncreasing | src/lib.rs:313-318 | a fresh generator issues strictly increasing, nonzero identifiers over up to 65535 iterations with readings below 2^42 |
| Trace.StepOnNode | src/lib.rs:219-223 | an identifier emitted by one iteration decodes to the generator's node id |
| Trace.RunOnNode | src/lib.rs:327-339 | every identifier a run emits decodes to the generator's node id, even if the counter wraps |
| Trace.DistinctNodesDistinctIds | src/lib.rs:432-446 | two generators with the same configuration and different node ids never emit a common identifier, whatever readings they see |
| Trace.GenerateIsRun | src/lib.rs:178-205 | a `generate` call that returns is the run over the readings it consumed, and that run emits exactly the returned identifier |
| Trace.SpinningIsSilentRun | src/lib.rs:178-205 | a `generate` call that is still retrying when the readings run out has emitted nothing |
| Trace.GenerateBound | src/lib.rs:178-205 | with readings below 2^42 on which the counter never wraps (`NoWrap`), a `generate` call returns an identifier above the starting bound and at most the bound it leaves |
| Trace.GenerateLeavesRoom | src/lib.rs:178-205 | after such a call, the leftover readings still meet the preconditions of `GenerateBound`: the last timestamp fits 42 bits and `NoWrap` holds on them |
| Trace.GenerateCallsIncreasing | src/lib.rs:577-587 | any number of consecutive `generate` calls on one stream of readings return strictly increasing identifiers, all above the starting bound, given readings below 2^42 on which the counter never wraps (`NoWrap`), across any number of ticks; two calls are the test at src/lib.rs:313-318 |
| Trace.ShortGenerateCallsIncreasing | src/lib.rs:577-587 | corollary: the same holds when the stream has fewer readings than the distance from the starting counter to 0xFFFF, which implies `NoWrap` |
| Trace.CounterClimbs | src/lib.rs:197-203 | with the clock held at or behind the last timestamp, each iteration adds exactly one to the counter and changes nothing else, until 0xFFFF |
| Trace.WrapReissuesId | src/lib.rs:197-203 | as written: with every reading c at or behind t (held at t or stepped back), after tick t starts the next iteration emits sequence 1 of tick t; after 65535 iterations with reading c in all, that one included, and one more that retries, the state is exactly the starting state again, so that identifier is issued a second time |
| Trace.GuardedStep | src/lib.rs:197-203 | corrected iteration: a counter that starts within the sequence range stays within it; whenever the tick is not exhausted, the iteration is `Step`; a retry changes nothing |
| Trace.GuardedStepBound | src/lib.rs:197-203 | the corrected iteration keeps the guarantee of `StepBound` without any condition on the counter |
| Trace.GuardedRunIncreasing | src/lib.rs:197-203 | with the correction, identifiers strictly increase over every run whose readings fit 42 bits, however long the clock stalls or runs behind |

## Findings

| source | as written | input that shows it | evidently intended | confidence | as-written member | corrected member |
|---|---|---|---|---|---|---|
| src/lib.rs:197-203 | every iteration that finds the tick exhausted still increments the `u16` counter with a wrapping `fetch_add`. While the clock stays at or behind `last_timestamp`, the counter passes 0xFFFF, wraps to 0, and the following iterations re-issue sequences 1, 2, … of a tick whose identifiers were already returned | a generator that has just started tick t (counter 0), then 65537 iterations that all read the same c <= t (the clock held at t, or stepped back to c): the first and the last iterations emit the same identifier `create_tsid(t, 1)` | an exhausted tick keeps the loop spinning without re-issuing any identifier, so identifiers stay unique and increasing: the test at src/lib.rs:561 asserts that no identifier is issued twice, and the tests at src/lib.rs:584 and src/lib.rs:647 assert that each identifier is greater than the one before | medium; not executed | Trace.WrapReissuesId | Trace.GuardedRunIncreasing |

The corrected iteration `Trace.GuardedStep` leaves the counter alone once the tick is
exhausted. `Trace.GuardedRun` and `Trace.GuardedRunIncreasing` are stated over it.
`Generator.Generate` and `Trace.Run` keep modelling the code as written. Every trace lemma
about them that promises increasing identifiers carries the `NoWrap` condition, or a
bound on the number of iterations that implies it.

## Left out

- `current_time` (src/lib.rs:209-215) reads the system clock; readings are parameters instead. Left unmodelled:
  - its `expect`;
  - the underflow when the wall clock is earlier than the custom epoch;
  - the custom epoch's only use, which is that subtraction.
- Atomics and concurrency are not modelled: memory orderings, a failed compare-and-swap (src/lib.rs:185-194) and the multi-threaded tests. The model is single-threaded, and there a compare-and-swap cannot fail.
- `Clone` (src/lib.rs:131-141), the `config()` accessor (src/lib.rs:263-265), the `Debug` derives and panic message texts are not modelled. None of them affects an identifier.
- Release builds are not modelled. There the `u16` shifts in `create_bit_config` wrap their shift amount instead of panicking; the model follows the checked semantics of debug and test builds.
- Tests that depend on sleeping or on wall-clock time (src/lib.rs:405-418, 498-520) are not modelled.
- Generator.Generate: a call that would spin forever is cut off when the given readings run out, and reports `Spinning`.
- Trace.RunIncreasing: assumes readings and the last timestamp below 2^42 (about 139 years after the epoch), and `NoWrap`. A larger reading is cut to 42 bits by `create_tsid` and can produce a smaller identifier; without `NoWrap` the source re-issues identifiers (see Findings).
- Trace.FreshGeneratorIncreasing: limited to 65535 iterations, the length that guarantees `NoWrap` from counter 0.
- Trace.GenerateCallsIncreasing: assumes readings below 2^42 and `NoWrap`, as `Trace.RunIncreasing` does and for the same reasons.
- Trace.ShortGenerateCallsIncreasing: limited to streams shorter than the distance from the counter to 0xFFFF. This is only a sufficient condition for `NoWrap`; the general statement is `Trace.GenerateCallsIncreasing`.
- Trace.DistinctNodesDistinctIds: about two separate generators, each run sequentially; interleavings within one shared instance are not modelled.

=== FILE: bits.dfy ===
/** Fixed-width unsigned integers of the Rust source (`u8`, `u16`, `u64`) and the
    bit operations the identifier layout uses, stated over unbounded naturals.

    `&` and `|` are defined bit by bit (least significant bit first), shifts as
    multiplication or division by a power of two, and the wrap-around of `<<` on
    a 64-bit word is written out as a remainder. The lemmas here connect the
    bitwise view with the arithmetic one: a low mask keeps a remainder, and the
    OR of two fields that do not overlap is their sum. */
module Bits {

  const U8_LIMIT: nat := 0x100
  const U16_LIMIT: nat := 0x1_0000
  const U64_LIMIT: nat := 0x1_0000_0000_0000_0000

  type u8 = x: nat | x < U8_LIMIT
  type u16 = x: nat | x < U16_LIMIT
  type u64 = x: nat | x < U64_LIMIT

  function Pow2(k: nat): (r: nat)
    ensures r >= 1
  {
    if k == 0 then 1 else 2 * Pow2(k - 1)
  }

  lemma {:induction false} Pow2Add(a: nat, b: nat)
    ensures Pow2(a + b) == Pow2(a) * Pow2(b)
  {
    if b > 0 {
      var pa, pb := Pow2(a), Pow2(b - 1);
      Pow2Add(a, b - 1);
      assert Pow2(a + b) == 2 * (pa * pb);
      assert pa * Pow2(b) == pa * (2 * pb);
    }
  }

  lemma {:induction false} Pow2Strict(a: nat, b: nat)
    requires a < b
    ensures Pow2(a) < Pow2(b)
  {
    if a + 1 < b {
      Pow2Strict(a, b - 1);
    }
  }

  const TWO_22: nat := 0x40_0000
  const TWO_42: nat := 0x400_0000_0000

  lemma Pow2Of10()
    ensures Pow2(10) == 1024
  {
    assert Pow2(5) == 32;
    Pow2Add(5, 5);
  }

  lemma Pow2Of12()
    ensures Pow2(12) == 4096
  {
    assert Pow2(6) == 64;
    Pow2Add(6, 6);
  }

  lemma Pow2Of16()
    ensures Pow2(16) == U16_LIMIT
  {
    assert Pow2(4) == 16;
    Pow2Add(4, 4);
    Pow2Add(8, 8);
  }

  lemma Pow2Of22()
    ensures Pow2(22) == TWO_22
  {
    Pow2Of16();
    assert Pow2(6) == 64;
    Pow2Add(16, 6);
  }

  lemma Pow2Of42()
    ensures Pow2(42) == TWO_42
  {
    Pow2Add(22, 20);
    Pow2Of22();
  }

  lemma Pow2Of64()
    ensures Pow2(64) == U64_LIMIT
  {
    Pow2Add(42, 22);
    Pow2Of42();
    Pow2Of22();
  }

  /** Bitwise AND of two naturals. */
  function BitAnd(a: nat, b: nat): (r: nat)
    ensures r <= a && r <= b
    decreases a
  {
    if a == 0 || b == 0 then 0
    else 2 * BitAnd(a / 2, b / 2) + (if a % 2 == 1 && b % 2 == 1 then 1 else 0)
  }

  /** Bitwise OR of two naturals. */
  function BitOr(a: nat, b: nat): nat
    decreases a
  {
    if a == 0 then b
    else if b == 0 then a
    else 2 * BitOr(a / 2, b / 2) + (if a % 2 == 1 || b % 2 == 1 then 1 else 0)
  }

  // ---------------------------------------------------------------------------
  // Division and remainder facts over a symbolic positive modulus

  lemma MulNat(x: nat, y: nat)
    ensures x * y >= 0
  {
  }

  lemma MulMono(x: int, y: int, m: nat)
    requires x <= y
    ensures x * m <= y * m
  {
  }

  /** A digit below `base`, scaled, leaves room for one more `scale` below `base * scale`. */
  lemma DigitBelow(d: nat, base: nat, scale: nat)
    requires d < base
    ensures d * scale + scale <= base * scale
  {
    MulMono(d + 1, base, scale);
  }

  lemma Regroup(hi: nat, lo: nat, base: nat, scale: nat)
    ensures hi * (base * scale) + lo * scale == (hi * base + lo) * scale
  {
  }

  lemma FullDigit(base: nat, scale: nat)
    requires base >= 1
    ensures (base - 1) * scale + scale == base * scale
  {
  }

  lemma ModSmall(x: nat, m: nat)
    requires x < m
    ensures x % m == x
  {
    DivModSum(0, x, m);
  }

  /** Quotient and remainder are unique: `a*m + b` with `b < m` splits back into `a` and `b`. */
  lemma DivModSum(a: nat, b: nat, m: nat)
    requires b < m
    ensures (a * m + b) / m == a
    ensures (a * m + b) % m == b
  {
    var n := a * m + b;
    var q := n / m;
    var r := n % m;
    assert n == q * m + r;
    if q > a {
      MulMono(a + 1, q, m);
      assert false;
    } else if q < a {
      MulMono(q + 1, a, m);
      assert false;
    }
  }

  /** Dividing by `a*b` is dividing by `a` and then by `b`. */
  lemma DivDiv(x: nat, a: nat, b: nat)
    requires a > 0 && b > 0
    ensures x / (a * b) == x / a / b
    ensures x % (a * b) == (x / a % b) * a + x % a
  {
    var q := x / a / b;
    var r := (x / a % b) * a + x % a;
    assert x / a == q * b + x / a % b;
    assert x == (x / a) * a + x % a;
    assert x == q * (a * b) + r by {
      assert (x / a) * a == (q * b + x / a % b) * a;
      assert (q * b + x / a % b) * a == q * (a * b) + (x / a % b) * a;
    }
    MulMono(x / a % b, b - 1, a);
    assert r < a * b;
    DivModSum(q, r, a * b);
  }

  /** Splitting `(hi*pn + mid)*ps + lo` back into its three digits. */
  lemma Digits(hi: nat, mid: nat, lo: nat, pn: nat, ps: nat)
    requires mid < pn && lo < ps
    ensures var x := (hi * pn + mid) * ps + lo;
            && x / ps == hi * pn + mid
            && x % ps == lo
            && x / ps / pn == hi
            && x / ps % pn == mid
  {
    DivModSum(hi * pn + mid, lo, ps);
    DivModSum(hi, mid, pn);
  }

  /** Every natural is the recombination of its three digits. */
  lemma Undigits(x: nat, pn: nat, ps: nat)
    requires pn > 0 && ps > 0
    ensures x == ((x / ps / pn) * pn + x / ps % pn) * ps + x % ps
  {
    var y := x / ps;
    assert x == y * ps + x % ps;
    assert y == (y / pn) * pn + y % pn;
  }

  /** `Digits` restated with the combined base and the whole value as parameters. It
      proves nothing new: it exists so that a caller's terms match the solver's directly. */
  lemma DigitsOf(x: nat, hi: nat, mid: nat, lo: nat, pn: nat, ps: nat, w: nat)
    requires mid < pn && lo < ps && w == pn * ps
    requires x == (hi * pn + mid) * ps + lo
    ensures x / w == hi && x / ps % pn == mid && x % ps == lo
  {
    Digits(hi, mid, lo, pn, ps);
    DivDiv(x, ps, pn);
  }

  /** `Undigits` restated with the combined base and the three digits as parameters. It
      proves nothing new: it exists so that a caller's terms match the solver's directly. */
  lemma UndigitsOf(x: nat, hi: nat, mid: nat, lo: nat, pn: nat, ps: nat, w: nat)
    requires pn > 0 && ps > 0 && w == pn * ps
    requires hi == x / w && mid == x / ps % pn && lo == x % ps
    ensures x == (hi * pn + mid) * ps + lo
  {
    Undigits(x, pn, ps);
    DivDiv(x, ps, pn);
  }

  // ---------------------------------------------------------------------------
  // Bitwise operations versus arithmetic

  /** AND with `2^k - 1` keeps the low `k` bits. */
  lemma {:induction false} AndLowMask(x: nat, k: nat)
    ensures BitAnd(x, Pow2(k) - 1) == x % Pow2(k)
  {
    var m := Pow2(k) - 1;
    if k == 0 {
      assert m == 0;
    } else if x == 0 {
      assert BitAnd(x, m) == 0;
    } else {
      var p := Pow2(k - 1);
      assert m == 2 * (p - 1) + 1;
      assert m / 2 == p - 1 && m % 2 == 1;
      var low := (x / 2) % p;
      assert BitAnd(x / 2, p - 1) == low by { AndLowMask(x / 2, k - 1); }
      assert BitAnd(x, m) == 2 * low + x % 2;
      assert x % (2 * p) == low * 2 + x % 2 by { DivDiv(x, 2, p); }
      assert BitAnd(x, m) == x % (2 * p);
    }
  }

  /** OR of a field shifted up by `k` and a value below `2^k` is their sum. */
  lemma {:induction false} OrDisjoint(a: nat, b: nat, k: nat)
    requires b < Pow2(k)
    ensures BitOr(a * Pow2(k), b) == a * Pow2(k) + b
  {
    var hi := a * Pow2(k);
    if k > 0 && hi != 0 && b != 0 {
      var p := Pow2(k - 1);
      assert hi == 2 * (a * p);
      assert hi / 2 == a * p && hi % 2 == 0;
      OrDisjoint(a, b / 2, k - 1);
    }
  }

  /** `OrDisjoint` restated with the power of two as a parameter. It proves nothing new:
      it exists so that a caller's terms match the solver's directly. */
  lemma OrField(hi: nat, lo: nat, k: nat, p: nat)
    requires p == Pow2(k) && lo < p
    ensures BitOr(hi * p, lo) == hi * p + lo
  {
    OrDisjoint(hi, lo, k);
  }

  /** `OrDisjoint` restated with the shifted field as a parameter. It proves nothing new:
      it exists so that a caller's terms match the solver's directly. */
  lemma OrLowDigit(hiField: nat, loField: nat, hi: nat, k: nat, p: nat)
    requires p == Pow2(k) && hiField == hi * p && loField < p
    ensures BitOr(hiField, loField) == hi * p + loField
  {
    OrDisjoint(hi, loField, k);
  }

  /** Two adjacent digit fields `hi` (above bit 22) and `mid` (scaled by `ps`, below bit 22)
      ORed together form the two-digit number `hi*pn + mid`, scaled by `ps`. */
  lemma OrTwoDigits(hiField: nat, midField: nat, hi: nat, mid: nat, pn: nat, ps: nat)
    requires hiField == hi * TWO_22 && midField == mid * ps && midField < TWO_22
    requires pn * ps == TWO_22
    ensures BitOr(hiField, midField) == (hi * pn + mid) * ps
  {
    Pow2Of22();
    OrField(hi, midField, 22, TWO_22);
    Regroup(hi, mid, pn, ps);
  }

  lemma {:induction false} OrComm(a: nat, b: nat)
    ensures BitOr(a, b) == BitOr(b, a)
    decreases a
  {
    if a != 0 && b != 0 {
      OrComm(a / 2, b / 2);
    }
  }

  /** OR never sets a bit at or above `k` that neither operand has. */
  lemma {:induction false} OrBound(a: nat, b: nat, k: nat)
    requires a < Pow2(k) && b < Pow2(k)
    ensures BitOr(a, b) < Pow2(k)
  {
    if k > 0 && a != 0 && b != 0 {
      OrBound(a / 2, b / 2, k - 1);
    }
  }

  // ---------------------------------------------------------------------------
  // Rust operators on fixed-width words

  /** `x << k` within a word of modulus `m`, one bit position at a time: each step
      doubles the value and drops whatever passes the top of the word. */
  function ShlMod(x: nat, k: nat, m: nat): (r: nat)
    requires m > 0
    ensures r < m
    decreases k
  {
    if k == 0 then x % m else ShlMod((2 * x) % m, k - 1, m)
  }

  /** A shift that moves no set bit past the top of the word is a multiplication. */
  lemma {:induction false} ShlNoWrap(x: nat, k: nat, m: nat, p: nat)
    requires m > 0 && p == Pow2(k) && x * p < m
    ensures ShlMod(x, k, m) == x * p
    decreases k
  {
    if k == 0 {
      ModSmall(x, m);
    } else {
      var p' := Pow2(k - 1);
      assert x * p == (2 * x) * p';
      MulMono(1, p', 2 * x);
      ModSmall(2 * x, m);
      ShlNoWrap(2 * x, k - 1, m, p');
    }
  }

  /** `ShlNoWrap` as an implication, for use inside a function body. It proves nothing
      new. */
  lemma ShlNoWrapWhenFits(x: nat, k: nat, m: nat, p: nat)
    requires m > 0 && p == Pow2(k)
    ensures x * p < m ==> ShlMod(x, k, m) == x * p
  {
    if x * p < m {
      ShlNoWrap(x, k, m, p);
    }
  }

  /** A mask of `k` low bits ORed with a mask of the digits above it, shifted up by `k`,
      covers the low 22 bits when the two digit bases multiply to `2^22`. */
  lemma MaskPair(sm: nat, nm: nat, pn: nat, ps: nat, k: nat)
    requires ps == Pow2(k) && pn >= 1 && pn * ps == TWO_22
    requires sm == ps - 1 && nm == pn - 1
    ensures BitOr(sm, ShlMod(nm, k, U64_LIMIT)) == TWO_22 - 1
  {
    FullDigit(pn, ps);
    ShlNoWrap(nm, k, U64_LIMIT, ps);
    OrComm(sm, nm * ps);
    OrField(nm, sm, k, ps);
  }

  /** `x >> k`, one bit position at a time. */
  function ShrBits(x: nat, k: nat): (r: nat)
    ensures r <= x
    decreases k
  {
    if k == 0 then x else ShrBits(x / 2, k - 1)
  }

  lemma {:induction false} ShrIsDiv(x: nat, k: nat, p: nat)
    requires p == Pow2(k)
    ensures ShrBits(x, k) == x / p
    decreases k
  {
    if k > 0 {
      var p' := Pow2(k - 1);
      ShrIsDiv(x / 2, k - 1, p');
      DivDiv(x, 2, p');
    }
  }

  /** `x << k` on `u64`; Rust rejects `k >= 64`. */
  function Shl64(x: u64, k: nat): u64
    requires k < 64
  {
    ShlMod(x, k, U64_LIMIT)
  }

  /** `x >> k` on `u64`; Rust rejects `k >= 64`. */
  function Shr64(x: u64, k: nat): u64
    requires k < 64
  {
    ShrBits(x, k)
  }

  function And64(a: u64, b: u64): u64 {
    BitAnd(a, b)
  }

  function Or64(a: u64, b: u64): u64 {
    Pow2Of64();
    OrBound(a, b, 64);
    BitOr(a, b)
  }

  /** Truncating cast `x as u16`. */
  function TruncU16(x: u64): (r: u16)
    ensures x < U16_LIMIT ==> r == x
  {
    x % U16_LIMIT
  }

  /** `fetch_add(1)` on an `AtomicU16`: wraps from 65535 to 0. */
  function WrappingIncU16(x: u16): (r: u16)
    ensures x < U16_LIMIT - 1 ==> r == x + 1
    ensures x == U16_LIMIT - 1 ==> r == 0
  {
    (x + 1) % U16_LIMIT
  }
}

=== FILE: config.dfy ===
/** Generator configuration: the node-bit width, the derived sequence-bit width
    and the custom epoch, with the default value and the chaining builder.

    The Rust struct keeps its fields private, so every configuration a program
    can hold comes from `Default` or from the builder; `WellFormed` is the
    invariant those two establish (lemma `BuilderChainWellFormed`). */
module Config {
  import opened Bits
  import opened Outcome

  /** Width of the timestamp field; fixed. */
  const TIMESTAMP_BITS: u8 := 42
  /** Node and sequence fields always share this many bits. */
  const TOTAL_NODE_AND_SEQUENCE_BITS: u8 := 22
  const DEFAULT_NODE_BITS: u8 := 10
  /** 2024-01-01T00:00:00Z in milliseconds since the Unix epoch. */
  const DEFAULT_CUSTOM_EPOCH: u64 := 1704067200000

  datatype TsidConfig = TsidConfig(nodeBits: u8, sequenceBits: u8, customEpoch: u64)

  /** Node width within the builder's accepted range, and node plus sequence bits total 22. */
  predicate WellFormed(c: TsidConfig) {
    1 <= c.nodeBits <= 20 && c.nodeBits + c.sequenceBits == TOTAL_NODE_AND_SEQUENCE_BITS as nat
  }

  /** `TsidConfig::default`. */
  function Default(): (c: TsidConfig)
    ensures WellFormed(c)
    ensures TIMESTAMP_BITS + c.nodeBits + c.sequenceBits == 64
    ensures c.nodeBits == 10 && c.sequenceBits == 12 && c.customEpoch == 1704067200000
  {
    TsidConfig(DEFAULT_NODE_BITS, TOTAL_NODE_AND_SEQUENCE_BITS - DEFAULT_NODE_BITS, DEFAULT_CUSTOM_EPOCH)
  }

  datatype TsidConfigBuilder = TsidConfigBuilder(config: TsidConfig)

  /** `TsidConfigBuilder::new` and `TsidConfig::builder`: start from the default, a
      well-formed configuration with 10 node bits, 12 sequence bits and the 2024 epoch. */
  function Builder(): (b: TsidConfigBuilder)
    ensures WellFormed(b.config)
    ensures b.config.nodeBits == 10 && b.config.sequenceBits == 12
    ensures b.config.customEpoch == 1704067200000
  {
    TsidConfigBuilder(Default())
  }

  /** `TsidConfigBuilder::node_bits`: panics unless `1 <= bits <= 20`; otherwise sets the
      node width and gives the sequence field the remaining bits of the 22. */
  function NodeBits(b: TsidConfigBuilder, bits: u8): (r: Result<TsidConfigBuilder>)
    ensures r.Ok? <==> 1 <= bits <= 20
    ensures r.Panic? ==> r.fault == NodeBitsOutOfRange
    ensures r.Ok? ==> r.value.config.nodeBits == bits
    ensures r.Ok? ==> r.value.config.nodeBits + r.value.config.sequenceBits == 22
    ensures r.Ok? ==> r.value.config.customEpoch == b.config.customEpoch
  {
    if bits > 0 && bits <= 20 then
      Ok(TsidConfigBuilder(b.config.(nodeBits := bits, sequenceBits := TOTAL_NODE_AND_SEQUENCE_BITS - bits)))
    else
      Panic(NodeBitsOutOfRange)
  }

  /** `TsidConfigBuilder::custom_epoch`: replaces the epoch and nothing else. */
  function CustomEpoch(b: TsidConfigBuilder, epoch: u64): (r: TsidConfigBuilder)
    ensures r.config.customEpoch == epoch
    ensures r.config.nodeBits == b.config.nodeBits && r.config.sequenceBits == b.config.sequenceBits
  {
    TsidConfigBuilder(b.config.(customEpoch := epoch))
  }

  /** `TsidConfigBuilder::build`. */
  function Build(b: TsidConfigBuilder): TsidConfig {
    b.config
  }

  // ---------------------------------------------------------------------------
  // Chains of builder calls

  datatype BuilderCall = SetNodeBits(bits: u8) | SetCustomEpoch(epoch: u64)

  /** Applies the calls left to right; the first panicking call aborts the chain. */
  function ApplyCalls(b: TsidConfigBuilder, calls: seq<BuilderCall>): Result<TsidConfigBuilder>
    decreases |calls|
  {
    if |calls| == 0 then Ok(b)
    else
      var next := match calls[0]
        case SetNodeBits(bits) => NodeBits(b, bits)
        case SetCustomEpoch(epoch) => Ok(CustomEpoch(b, epoch));
      if next.Panic? then next else ApplyCalls(next.value, calls[1..])
  }

  /** The node width that survives a chain: the last one set, else the starting one. */
  function LastNodeBits(start: u8, calls: seq<BuilderCall>): u8
    decreases |calls|
  {
    if |calls| == 0 then start
    else if calls[|calls| - 1].SetNodeBits? then calls[|calls| - 1].bits
    else LastNodeBits(start, calls[..|calls| - 1])
  }

  /** The epoch that survives a chain: the last one set, else the starting one. */
  function LastEpoch(start: u64, calls: seq<BuilderCall>): u64
    decreases |calls|
  {
    if |calls| == 0 then start
    else if calls[|calls| - 1].SetCustomEpoch? then calls[|calls| - 1].epoch
    else LastEpoch(start, calls[..|calls| - 1])
  }

  lemma {:induction false} LastNodeBitsCons(start: u8, c: BuilderCall, calls: seq<BuilderCall>)
    ensures LastNodeBits(start, [c] + calls)
         == LastNodeBits(if c.SetNodeBits? then c.bits else start, calls)
    decreases |calls|
  {
    if |calls| > 0 {
      assert ([c] + calls)[..|[c] + calls| - 1] == [c] + calls[..|calls| - 1];
      LastNodeBitsCons(start, c, calls[..|calls| - 1]);
    }
  }

  lemma {:induction false} LastEpochCons(start: u64, c: BuilderCall, calls: seq<BuilderCall>)
    ensures LastEpoch(start, [c] + calls)
         == LastEpoch(if c.SetCustomEpoch? then c.epoch else start, calls)
    decreases |calls|
  {
    if |calls| > 0 {
      assert ([c] + calls)[..|[c] + calls| - 1] == [c] + calls[..|calls| - 1];
      LastEpochCons(start, c, calls[..|calls| - 1]);
    }
  }

  /** Every builder chain either panics on an out-of-range width or yields a well-formed
      configuration whose node width is the last one set and whose epoch is the last one set. */
  lemma {:induction false} BuilderChainWellFormed(b: TsidConfigBuilder, calls: seq<BuilderCall>)
    requires WellFormed(b.config)
    ensures ApplyCalls(b, calls).Ok?
        <==> forall i :: 0 <= i < |calls| && calls[i].SetNodeBits? ==> 1 <= calls[i].bits <= 20
    ensures ApplyCalls(b, calls).Ok? ==>
              var c := Build(ApplyCalls(b, calls).value);
              && WellFormed(c)
              && c.nodeBits == LastNodeBits(b.config.nodeBits, calls)
              && c.customEpoch == LastEpoch(b.config.customEpoch, calls)
    decreases |calls|
  {
    if |calls| > 0 {
      var next := match calls[0]
        case SetNodeBits(bits) => NodeBits(b, bits)
        case SetCustomEpoch(epoch) => Ok(CustomEpoch(b, epoch));
      assert calls == [calls[0]] + calls[1..];
      LastNodeBitsCons(b.config.nodeBits, calls[0], calls[1..]);
      LastEpochCons(b.config.customEpoch, calls[0], calls[1..]);
      if next.Ok? {
        BuilderChainWellFormed(next.value, calls[1..]);
        if ApplyCalls(b, calls).Ok? {
          forall i | 0 <= i < |calls| && calls[i].SetNodeBits?
            ensures 1 <= calls[i].bits <= 20
          {
            if i > 0 {
              assert calls[i] == calls[1..][i - 1];
            }
          }
        }
      }
    }
  }
}

=== FILE: generator.dfy ===
/** The generator: a node identifier, the layout, and the two pieces of mutable state
    the Rust struct keeps in atomics, the last timestamp and the sequence counter.

    The model is sequential. One pass through the body of the `generate` loop is
    `Step`, which takes the clock reading as a parameter and returns the next state
    together with either an emitted identifier or a request to retry. Run on one
    thread, the compare-and-swap that installs a newer timestamp always succeeds,
    because nothing else writes the timestamp between its load and the swap. */
module Generator {
  import opened Bits
  import opened Outcome
  import opened Config
  import opened Layout

  datatype TsidGenerator = TsidGenerator(
    nodeId: u16,
    lastTimestamp: u64,
    sequence: u16,
    config: TsidConfig,
    bitConfig: BitConfig)

  /** What every constructed generator satisfies: its layout is the one derived from
      its configuration and its node identifier fits the node field. The timestamp
      and the counter may hold any value. */
  predicate Valid(g: TsidGenerator) {
    && WellFormed(g.config)
    && ValidLayout(g.bitConfig)
    && SequenceBitsOf(g.bitConfig) == g.config.sequenceBits
    && g.nodeId <= g.bitConfig.nodeMask
  }

  /** `TsidGenerator::with_config`: derives the layout (which panics for node widths
      outside 7..15), then rejects a node identifier above the largest node. */
  function WithConfig(nodeId: u16, config: TsidConfig): (r: Result<TsidGenerator>)
    requires WellFormed(config)
    ensures r.Ok? <==> 7 <= config.nodeBits <= 15 && nodeId < Pow2(config.nodeBits)
    ensures r.Panic? && 7 <= config.nodeBits <= 15 ==> r.fault == NodeIdOutOfRange
    ensures r.Panic? && !(7 <= config.nodeBits <= 15) ==> r.fault == ShiftOverflow
    ensures r.Ok? ==> Valid(r.value)
    ensures r.Ok? ==> r.value.nodeId == nodeId && r.value.config == config
    ensures r.Ok? ==> r.value.lastTimestamp == 0 && r.value.sequence == 0
  {
    var bitConfig := CreateBitConfig(config);
    if bitConfig.Panic? then Panic(bitConfig.fault)
    else if nodeId > bitConfig.value.nodeMask then Panic(NodeIdOutOfRange)
    else Ok(TsidGenerator(nodeId, 0, 0, config, bitConfig.value))
  }

  /** `TsidGenerator::new`: `with_config` with the default configuration, so it accepts
      exactly the node identifiers that fit 10 bits. */
  function New(nodeId: u16): (r: Result<TsidGenerator>)
    ensures r.Ok? <==> nodeId <= 1023
    ensures r.Panic? ==> r.fault == NodeIdOutOfRange
    ensures r.Ok? ==> Valid(r.value) && r.value.nodeId == nodeId && r.value.config == Default()
    ensures r.Ok? ==> AtStart(r.value)
  {
    Pow2Of10();
    WithConfig(nodeId, Default())
  }

  /** With a 10-bit node field (as in the default configuration) exactly the node
      identifiers 0..1023 are accepted, any other is rejected as out of range, and an
      accepted generator has room for 1024 nodes and 2^(22-10) sequences per tick. */
  lemma TenNodeBitsAcceptsExactly(nodeId: u16, c: TsidConfig)
    requires WellFormed(c) && c.nodeBits == 10
    ensures WithConfig(nodeId, c).Ok? <==> nodeId <= 1023
    ensures WithConfig(nodeId, c).Panic? ==> WithConfig(nodeId, c).fault == NodeIdOutOfRange
    ensures WithConfig(nodeId, c).Ok? ==> MaxNodeId(WithConfig(nodeId, c).value) == 1023
  {
    Pow2Of10();
  }

  /** `new` rejects every node identifier above 1023 as out of range. Together with
      `NewInitialState` this says it accepts exactly 0..1023. */
  lemma NewRejectsWideNodeId(nodeId: u16)
    requires nodeId > 1023
    ensures New(nodeId) == Panic(NodeIdOutOfRange)
  {
    TenNodeBitsAcceptsExactly(nodeId, Default());
  }

  /** No identifier issued yet: the state `with_config` installs. */
  predicate AtStart(g: TsidGenerator) {
    g.lastTimestamp == 0 && g.sequence == 0
  }

  /** With a 10-bit node field every node identifier up to 1023 gives a generator at
      its start state with room for 1024 nodes and 4096 sequences per tick. */
  lemma TenNodeBitsInitialState(nodeId: u16, c: TsidConfig)
    requires WellFormed(c) && c.nodeBits == 10 && nodeId <= 1023
    ensures WithConfig(nodeId, c).Ok?
    ensures var g := WithConfig(nodeId, c).value;
            && Valid(g) && g.nodeId == nodeId && g.config == c && AtStart(g)
            && MaxNodeId(g) == 1023 && MaxSequence(g) == 4095
  {
    TenNodeBitsAcceptsExactly(nodeId, c);
    Pow2Of12();
  }

  /** A generator made by `new` starts at timestamp 0 and sequence 0, with room for
      1024 nodes and 4096 sequences per tick. */
  lemma NewInitialState(nodeId: u16)
    requires nodeId <= 1023
    ensures New(nodeId).Ok?
    ensures Valid(New(nodeId).value) && AtStart(New(nodeId).value)
    ensures New(nodeId).value.nodeId == nodeId && New(nodeId).value.config == Default()
    ensures MaxNodeId(New(nodeId).value) == 1023 && MaxSequence(New(nodeId).value) == 4095
  {
    var r := New(nodeId);
    TenNodeBitsInitialState(nodeId, Default());
    assert r.Ok? && Valid(r.value) && AtStart(r.value);
    assert r.value.nodeId == nodeId && r.value.config == Default();
    assert MaxNodeId(r.value) == 1023 && MaxSequence(r.value) == 4095;
  }

  /** With a 12-bit node field, node identifiers up to 4095 are accepted and the
      generator has room for 4096 nodes and 1024 sequences per tick. */
  lemma TwelveNodeBitsInitialState(nodeId: u16, c: TsidConfig)
    requires WellFormed(c) && c.nodeBits == 12 && nodeId <= 4095
    ensures WithConfig(nodeId, c).Ok?
    ensures var g := WithConfig(nodeId, c).value;
            && Valid(g) && g.nodeId == nodeId && AtStart(g)
            && MaxNodeId(g) == 4095 && MaxSequence(g) == 1023
  {
    Pow2Of12();
    Pow2Of10();
  }

  /** The builder chain `node_bits(12)` then `custom_epoch(...)` gives a configuration
      under which node 1023 is accepted, with 4095 as the largest node and 1023 as the
      largest sequence. */
  lemma CustomConfigExample()
    ensures NodeBits(Builder(), 12).Ok?
    ensures var c := Build(CustomEpoch(NodeBits(Builder(), 12).value, DEFAULT_CUSTOM_EPOCH));
            && c.nodeBits == 12 && c.sequenceBits == 10
            && WithConfig(1023, c).Ok?
            && MaxNodeId(WithConfig(1023, c).value) == 4095
            && MaxSequence(WithConfig(1023, c).value) == 1023
  {
    var c := Build(CustomEpoch(NodeBits(Builder(), 12).value, DEFAULT_CUSTOM_EPOCH));
    TwelveNodeBitsInitialState(1023, c);
  }

  /** `TsidGenerator::create_tsid`. */
  function CreateTsid(g: TsidGenerator, timestamp: u64, sequence: u16): u64
    requires Valid(g)
  {
    Pack(g.bitConfig, timestamp, g.nodeId, sequence)
  }

  /** An identifier made by the generator decodes to the timestamp cut to 42 bits, the
      generator's own node identifier, and the sequence it was given. */
  lemma CreateTsidFields(g: TsidGenerator, timestamp: u64, sequence: u16)
    requires Valid(g) && sequence <= MaxSequence(g)
    ensures ExtractFromTsid(g, CreateTsid(g, timestamp, sequence))
         == Fields(timestamp % TWO_42, g.nodeId, sequence)
  {
    ExtractPack(g.bitConfig, timestamp, g.nodeId, sequence);
    ModSmall(g.nodeId, NodeRadix(g.bitConfig));
    ModSmall(sequence, SequenceRadix(g.bitConfig));
  }

  /** Identifiers of one generator order by timestamp first and sequence second, as long
      as both fit their fields. */
  lemma CreateTsidOrder(g: TsidGenerator, t1: u64, q1: u16, t2: u64, q2: u16)
    requires Valid(g) && t1 < TWO_42 && t2 < TWO_42
    requires q1 <= MaxSequence(g) && q2 <= MaxSequence(g)
    ensures CreateTsid(g, t1, q1) < CreateTsid(g, t2, q2) <==> t1 < t2 || (t1 == t2 && q1 < q2)
  {
    PackOrder(g.bitConfig, g.nodeId, t1, q1, t2, q2);
  }

  /** `TsidGenerator::extract_from_tsid`. */
  function ExtractFromTsid(g: TsidGenerator, tsid: u64): (f: Fields)
    requires Valid(g)
    ensures f.timestamp < TWO_42
    ensures f.node < Pow2(g.config.nodeBits) && f.sequence < Pow2(g.config.sequenceBits)
  {
    Extract(g.bitConfig, tsid)
  }

  /** `TsidGenerator::max_node_id`. */
  function MaxNodeId(g: TsidGenerator): (r: u16)
    requires Valid(g)
    ensures r == Pow2(g.config.nodeBits) - 1
  {
    g.bitConfig.nodeMask
  }

  /** `TsidGenerator::max_sequence`. */
  function MaxSequence(g: TsidGenerator): (r: u16)
    requires Valid(g)
    ensures r == Pow2(g.config.sequenceBits) - 1
  {
    g.bitConfig.sequenceMask
  }

  // ---------------------------------------------------------------------------
  // One iteration of the `generate` loop

  datatype Attempt = Emit(id: u64) | Retry

  datatype StepResult = StepResult(gen: TsidGenerator, attempt: Attempt)

  /** The generator with only its state changed. */
  predicate SameIdentity(g: TsidGenerator, h: TsidGenerator) {
    h.nodeId == g.nodeId && h.config == g.config && h.bitConfig == g.bitConfig
  }

  /** One pass through the loop body of `generate` with clock reading `clock`.
      A reading past the last timestamp starts a new tick at sequence 0. Otherwise
      the identifier keeps the last timestamp (never the smaller reading), the counter
      is fetched and incremented with wrap-around, and an identifier is emitted only
      if the fetched value is below the largest sequence; else the caller retries. */
  function Step(g: TsidGenerator, clock: u64): (r: StepResult)
    requires Valid(g)
    ensures Valid(r.gen) && SameIdentity(g, r.gen)
    ensures r.gen.lastTimestamp == if clock > g.lastTimestamp then clock else g.lastTimestamp
    ensures clock > g.lastTimestamp ==>
              r.gen.sequence == 0 && r.attempt == Emit(CreateTsid(g, clock, 0))
    ensures clock <= g.lastTimestamp ==> r.gen.sequence == WrappingIncU16(g.sequence)
    ensures clock <= g.lastTimestamp ==> (r.attempt.Emit? <==> g.sequence < MaxSequence(g))
    ensures clock <= g.lastTimestamp && r.attempt.Emit? ==>
              r.attempt.id == CreateTsid(g, g.lastTimestamp, g.sequence + 1)
  {
    if clock > g.lastTimestamp then
      StepResult(g.(lastTimestamp := clock, sequence := 0), Emit(CreateTsid(g, clock, 0)))
    else
      var currentTs := if clock < g.lastTimestamp then g.lastTimestamp else clock;
      var fetched := g.sequence;
      var next := g.(sequence := WrappingIncU16(fetched));
      if fetched < g.bitConfig.sequenceMask then
        StepResult(next, Emit(CreateTsid(g, currentTs, fetched + 1)))
      else
        StepResult(next, Retry)
  }

  /** The identifier emitted on a new tick decodes to the reading cut to 42 bits, the
      node identifier and sequence 0. */
  lemma StepAdvancesTick(g: TsidGenerator, clock: u64)
    requires Valid(g) && clock > g.lastTimestamp
    ensures Step(g, clock).attempt.Emit?
    ensures ExtractFromTsid(g, Step(g, clock).attempt.id) == Fields(clock % TWO_42, g.nodeId, 0)
  {
    CreateTsidFields(g, clock, 0);
  }

  /** On the same tick, or with the clock behind, an emitted identifier decodes to the
      last timestamp (never the smaller reading) and the fetched counter plus one. */
  lemma StepSameTick(g: TsidGenerator, clock: u64)
    requires Valid(g) && clock <= g.lastTimestamp && g.sequence < MaxSequence(g)
    ensures Step(g, clock).attempt.Emit?
    ensures ExtractFromTsid(g, Step(g, clock).attempt.id)
         == Fields(g.lastTimestamp % TWO_42, g.nodeId, g.sequence + 1)
  {
    var q: u16 := g.sequence + 1;
    var id := CreateTsid(g, g.lastTimestamp, q);
    assert Step(g, clock).attempt == Emit(id);
    CreateTsidFields(g, g.lastTimestamp, q);
  }

  // ---------------------------------------------------------------------------
  // The whole `generate` call

  /** Outcome of `generate` given the clock readings its loop iterations will see:
      either an identifier and the readings left over, or the readings ran out while
      the loop was still retrying. */
  datatype GenerateResult =
    | Generated(gen: TsidGenerator, id: u64, rest: seq<u64>)
    | Spinning(gen: TsidGenerator)

  /** `TsidGenerator::generate`: steps with successive readings until one emits. */
  function Generate(g: TsidGenerator, clocks: seq<u64>): (r: GenerateResult)
    requires Valid(g)
    ensures Valid(r.gen) && SameIdentity(g, r.gen)
    ensures r.gen.lastTimestamp >= g.lastTimestamp
    ensures r.Generated? ==> |r.rest| < |clocks| && r.rest == clocks[|clocks| - |r.rest|..]
    ensures r.Spinning? ==> r.gen.lastTimestamp == g.lastTimestamp
    decreases |clocks|
  {
    if |clocks| == 0 then Spinning(g)
    else
      var s := Step(g, clocks[0]);
      if s.attempt.Emit? then Generated(s.gen, s.attempt.id, clocks[1..])
      else Generate(s.gen, clocks[1..])
  }

  /** A reading past the last timestamp ends the loop: `generate` cannot spin through it. */
  lemma {:induction false} GenerateStopsOnNewTick(g: TsidGenerator, clocks: seq<u64>, k: nat)
    requires Valid(g)
    requires k < |clocks| && clocks[k] > g.lastTimestamp
    ensures Generate(g, clocks).Generated?
    ensures |Generate(g, clocks).rest| >= |clocks| - k - 1
    decreases |clocks|
  {
    var s := Step(g, clocks[0]);
    if k > 0 && s.attempt.Retry? {
      GenerateStopsOnNewTick(s.gen, clocks[1..], k - 1);
    }
  }

  /** The first `generate` call on a generator at its start state, with a positive first
      reading, returns at once an identifier that decodes to that reading, the node
      identifier and sequence 0, and is nonzero when the reading fits 42 bits. */
  lemma FirstGenerate(g: TsidGenerator, clock: u64, rest: seq<u64>)
    requires Valid(g) && AtStart(g) && clock > 0
    ensures var a := Generate(g, [clock] + rest);
            && a.Generated? && a.rest == rest
            && a.gen.lastTimestamp == clock && a.gen.sequence == 0
            && ExtractFromTsid(g, a.id) == Fields(clock % TWO_42, g.nodeId, 0)
            && (clock < TWO_42 ==> a.id > 0)
  {
    var clocks := [clock] + rest;
    assert clocks[0] == clock && clocks[1..] == rest;
    StepAdvancesTick(g, clock);
    if clock < TWO_42 {
      CreateTsidOrder(g, 0, 0, clock, 0);
    }
  }
}

=== FILE: layout.dfy ===
/** The bit layout of a 64-bit identifier and its derivation from a configuration.

    An identifier holds three disjoint fields, high to low: a 42-bit timestamp,
    a node field of `nodeBits` bits, and a sequence field of the remaining
    `22 - nodeBits` bits. `CreateBitConfig` computes shifts and masks the way the
    source does, including the `u16` shift that fails for widths of 16 or more;
    `Pack` and the `Extract*` functions are the source's `create_tsid` and
    `extract_*` over those masks. */
module Layout {
  import opened Bits
  import opened Outcome
  import opened Config

  /** The source's `BitConfig`. Its `max_sequence` and `max_node` fields are always
      copies of `sequence_mask` and `node_mask`, so the masks stand for them here. */
  datatype BitConfig = BitConfig(
    nodeShift: u8,
    timestampShift: u8,
    sequenceMask: u16,
    nodeMask: u16,
    timestampMask: u64)

  /** Width of the sequence field of a layout. */
  function SequenceBitsOf(bc: BitConfig): nat {
    bc.nodeShift
  }

  /** Width of the node field of a layout. */
  function NodeBitsOf(bc: BitConfig): nat
    requires ValidLayout(bc)
  {
    bc.timestampShift - bc.nodeShift
  }

  /** The layouts `CreateBitConfig` can produce: both narrow widths fit a `u16` mask,
      the fields are adjacent, and every mask is a run of low one bits. */
  predicate ValidLayout(bc: BitConfig) {
    && bc.timestampShift == 22
    && 7 <= bc.nodeShift <= 15
    && bc.sequenceMask == Pow2(bc.nodeShift) - 1
    && bc.nodeMask == Pow2(22 - bc.nodeShift) - 1
    && bc.timestampMask == TWO_42 - 1
  }

  /** Number of distinct node values, `2^nodeBits`. */
  function NodeRadix(bc: BitConfig): nat
    requires ValidLayout(bc)
  {
    Pow2(NodeBitsOf(bc))
  }

  /** Number of distinct sequence values per tick, `2^sequenceBits`. */
  function SequenceRadix(bc: BitConfig): nat {
    Pow2(SequenceBitsOf(bc))
  }

  /** `x << k` on a `u16` with Rust's overflow check: a shift by 16 or more panics. */
  function ShlU16Checked(x: u16, k: u8): (r: Result<u16>)
    ensures r.Ok? <==> k < 16
    ensures r.Panic? ==> r.fault == ShiftOverflow
    ensures r.Ok? && x * Pow2(k) < U16_LIMIT ==> r.value == x * Pow2(k)
  {
    if k >= 16 then Panic(ShiftOverflow)
    else
      ShlNoWrapWhenFits(x, k, U16_LIMIT, Pow2(k));
      Ok(ShlMod(x, k, U16_LIMIT))
  }

  /** `(1 << bits) - 1` computed on a `u16`. */
  function LowMaskU16(bits: u8): (r: Result<u16>)
    ensures r.Ok? <==> bits < 16
    ensures r.Panic? ==> r.fault == ShiftOverflow
    ensures r.Ok? ==> r.value == Pow2(bits) - 1
  {
    var one := ShlU16Checked(1, bits);
    if one.Panic? then Panic(one.fault)
    else
      Pow2Of16();
      Pow2Strict(bits, 16);
      Ok(one.value - 1)
  }

  /** `TsidConfig::create_bit_config`. The masks are `u16`, so the derivation succeeds
      exactly when both the node and the sequence width are at most 15, i.e. for node
      widths 7 through 15; otherwise the shift overflows and the program panics. */
  function CreateBitConfig(c: TsidConfig): (r: Result<BitConfig>)
    requires WellFormed(c)
    ensures r.Ok? <==> 7 <= c.nodeBits <= 15
    ensures r.Panic? ==> r.fault == ShiftOverflow
    ensures r.Ok? ==> ValidLayout(r.value)
    ensures r.Ok? ==> SequenceBitsOf(r.value) == c.sequenceBits && NodeBitsOf(r.value) == c.nodeBits
    ensures r.Ok? ==> r.value.nodeMask == Pow2(c.nodeBits) - 1
    ensures r.Ok? ==> r.value.sequenceMask == Pow2(c.sequenceBits) - 1
  {
    var nodeShift := c.sequenceBits;
    var timestampShift := c.nodeBits + c.sequenceBits;
    var sequenceMask := LowMaskU16(c.sequenceBits);
    var nodeMask := LowMaskU16(c.nodeBits);
    if sequenceMask.Panic? then Panic(sequenceMask.fault)
    else if nodeMask.Panic? then Panic(nodeMask.fault)
    else
      Pow2Of42();
      Ok(BitConfig(
        nodeShift := nodeShift,
        timestampShift := timestampShift,
        sequenceMask := sequenceMask.value,
        nodeMask := nodeMask.value,
        timestampMask := LowMask64(TIMESTAMP_BITS as nat)))
  }

  // ---------------------------------------------------------------------------
  // Packing and unpacking

  /** `create_tsid` with the node identifier passed in: masks each field and ORs the
      shifted fields together. */
  function Pack(bc: BitConfig, timestamp: u64, node: u16, sequence: u16): u64
    requires ValidLayout(bc)
  {
    Or64(
      Or64(Shl64(And64(timestamp, bc.timestampMask), bc.timestampShift),
           Shl64(And64(node, bc.nodeMask), bc.nodeShift)),
      And64(sequence, bc.sequenceMask))
  }

  /** `extract_timestamp`. */
  function ExtractTimestamp(bc: BitConfig, tsid: u64): (r: u64)
    requires ValidLayout(bc)
    ensures r <= bc.timestampMask
  {
    And64(Shr64(tsid, bc.timestampShift), bc.timestampMask)
  }

  /** `extract_node`. */
  function ExtractNode(bc: BitConfig, tsid: u64): (r: u16)
    requires ValidLayout(bc)
    ensures r <= bc.nodeMask
  {
    TruncU16(And64(Shr64(tsid, bc.nodeShift), bc.nodeMask))
  }

  /** `extract_sequence`. */
  function ExtractSequence(bc: BitConfig, tsid: u64): (r: u16)
    requires ValidLayout(bc)
    ensures r <= bc.sequenceMask
  {
    TruncU16(And64(tsid, bc.sequenceMask))
  }

  datatype Fields = Fields(timestamp: u64, node: u16, sequence: u16)

  /** `extract_from_tsid`. */
  function Extract(bc: BitConfig, tsid: u64): (f: Fields)
    requires ValidLayout(bc)
    ensures f.timestamp <= bc.timestampMask && f.node <= bc.nodeMask && f.sequence <= bc.sequenceMask
  {
    Fields(ExtractTimestamp(bc, tsid), ExtractNode(bc, tsid), ExtractSequence(bc, tsid))
  }

  // ---------------------------------------------------------------------------
  // Arithmetic meaning of the layout

  /** The node and sequence fields together fill 22 bits, each at most 15 wide. */
  lemma ValidWidths(bc: BitConfig)
    requires ValidLayout(bc)
    ensures NodeRadix(bc) * SequenceRadix(bc) == TWO_22
    ensures NodeRadix(bc) < U16_LIMIT && SequenceRadix(bc) < U16_LIMIT
  {
    Pow2Add(NodeBitsOf(bc), SequenceBitsOf(bc));
    Pow2Of22();
    Pow2Of16();
    Pow2Strict(NodeBitsOf(bc), 16);
    Pow2Strict(SequenceBitsOf(bc), 16);
  }

  /** The timestamp field: cut to 42 bits, moved up by 22. */
  lemma TimestampField(t: u64)
    ensures And64(t, TWO_42 - 1) == t % TWO_42
    ensures Shl64(And64(t, TWO_42 - 1), 22) == (t % TWO_42) * TWO_22
  {
    Pow2Of42();
    Pow2Of22();
    AndLowMask(t, 42);
    var hi := t % TWO_42;
    assert hi * TWO_22 < U64_LIMIT;
    ShlNoWrap(hi, 22, U64_LIMIT, TWO_22);
  }

  /** The node field: cut to its width, moved up by the sequence width, below bit 22. */
  lemma NodeField(bc: BitConfig, n: u16)
    requires ValidLayout(bc)
    ensures Shl64(And64(n, bc.nodeMask), bc.nodeShift) == (n % NodeRadix(bc)) * SequenceRadix(bc)
    ensures (n % NodeRadix(bc)) * SequenceRadix(bc) + SequenceRadix(bc) <= TWO_22
  {
    var pn, ps := NodeRadix(bc), SequenceRadix(bc);
    var mid := n % pn;
    assert And64(n, bc.nodeMask) == mid by { AndLowMask(n, NodeBitsOf(bc)); }
    assert mid * ps + ps <= TWO_22 by {
      ValidWidths(bc);
      DigitBelow(mid, pn, ps);
    }
    ShlNoWrap(mid, bc.nodeShift, U64_LIMIT, ps);
  }

  /** The timestamp and node fields ORed together. */
  lemma PackHigh(bc: BitConfig, t: u64, n: u16)
    requires ValidLayout(bc)
    ensures Or64(Shl64(And64(t, bc.timestampMask), bc.timestampShift),
                 Shl64(And64(n, bc.nodeMask), bc.nodeShift))
            == ((t % TWO_42) * NodeRadix(bc) + n % NodeRadix(bc)) * SequenceRadix(bc)
  {
    TimestampField(t);
    NodeField(bc, n);
    ValidWidths(bc);
    OrTwoDigits(Shl64(And64(t, bc.timestampMask), bc.timestampShift),
                Shl64(And64(n, bc.nodeMask), bc.nodeShift),
                t % TWO_42, n % NodeRadix(bc), NodeRadix(bc), SequenceRadix(bc));
  }

  /** A packed identifier is the timestamp, node and sequence, each cut to its width,
      written as digits of base `2^nodeBits` and `2^sequenceBits`. */
  lemma PackArith(bc: BitConfig, t: u64, n: u16, q: u16)
    requires ValidLayout(bc)
    ensures Pack(bc, t, n, q)
         == ((t % TWO_42) * NodeRadix(bc) + n % NodeRadix(bc)) * SequenceRadix(bc) + q % SequenceRadix(bc)
  {
    PackHigh(bc, t, n);
    AndLowMask(q, SequenceBitsOf(bc));
    MulNat(t % TWO_42, NodeRadix(bc));
    OrLowDigit(Or64(Shl64(And64(t, bc.timestampMask), bc.timestampShift),
                    Shl64(And64(n, bc.nodeMask), bc.nodeShift)),
               And64(q, bc.sequenceMask),
               (t % TWO_42) * NodeRadix(bc) + n % NodeRadix(bc),
               SequenceBitsOf(bc), SequenceRadix(bc));
  }

  /** The same value with the fields at their bit offsets. */
  lemma PackOffsets(bc: BitConfig, t: u64, n: u16, q: u16)
    requires ValidLayout(bc)
    ensures Pack(bc, t, n, q)
         == (t % TWO_42) * TWO_22 + (n % NodeRadix(bc)) * SequenceRadix(bc) + q % SequenceRadix(bc)
    ensures (n % NodeRadix(bc)) * SequenceRadix(bc) + q % SequenceRadix(bc) < TWO_22
  {
    var pn, ps := NodeRadix(bc), SequenceRadix(bc);
    PackArith(bc, t, n, q);
    ValidWidths(bc);
    Regroup(t % TWO_42, n % pn, pn, ps);
    NodeField(bc, n);
  }

  lemma ExtractTimestampArith(bc: BitConfig, x: u64)
    requires ValidLayout(bc)
    ensures ExtractTimestamp(bc, x) == x / TWO_22
  {
    Pow2Of22();
    Pow2Of42();
    ShrIsDiv(x, 22, TWO_22);
    var hi := x / TWO_22;
    assert hi < TWO_42;
    AndLowMask(hi, 42);
    ModSmall(hi, TWO_42);
  }

  lemma ExtractNodeArith(bc: BitConfig, x: u64)
    requires ValidLayout(bc)
    ensures ExtractNode(bc, x) == x / SequenceRadix(bc) % NodeRadix(bc)
  {
    ValidWidths(bc);
    ShrIsDiv(x, bc.nodeShift, SequenceRadix(bc));
    AndLowMask(x / SequenceRadix(bc), NodeBitsOf(bc));
  }

  lemma ExtractSequenceArith(bc: BitConfig, x: u64)
    requires ValidLayout(bc)
    ensures ExtractSequence(bc, x) == x % SequenceRadix(bc)
  {
    ValidWidths(bc);
    AndLowMask(x, SequenceBitsOf(bc));
  }

  /** Round trip: unpacking a packed identifier gives back each field cut to its width. */
  lemma ExtractPack(bc: BitConfig, t: u64, n: u16, q: u16)
    requires ValidLayout(bc)
    ensures var f := Extract(bc, Pack(bc, t, n, q));
            && f.timestamp == t % TWO_42
            && f.node == n % NodeRadix(bc)
            && f.sequence == q % SequenceRadix(bc)
  {
    var pn, ps := NodeRadix(bc), SequenceRadix(bc);
    var x := Pack(bc, t, n, q);
    var hi, mid, lo := t % TWO_42, n % pn, q % ps;
    assert x == (hi * pn + mid) * ps + lo by { PackArith(bc, t, n, q); }
    assert pn * ps == TWO_22 by { ValidWidths(bc); }
    DigitsOf(x, hi, mid, lo, pn, ps, TWO_22);
    ExtractTimestampArith(bc, x);
    ExtractNodeArith(bc, x);
    ExtractSequenceArith(bc, x);
  }

  /** Round trip for in-range fields: `extract_from_tsid(create_tsid(t, s)) == (t, node, s)`. */
  lemma RoundTrip(bc: BitConfig, t: u64, n: u16, q: u16)
    requires ValidLayout(bc)
    requires t <= bc.timestampMask && n <= bc.nodeMask && q <= bc.sequenceMask
    ensures Extract(bc, Pack(bc, t, n, q)) == Fields(t, n, q)
  {
    ExtractPack(bc, t, n, q);
    ModSmall(t, TWO_42);
    ModSmall(n, NodeRadix(bc));
    ModSmall(q, SequenceRadix(bc));
  }

  /** `PackArith` for fields already within their widths. */
  lemma PackInRange(bc: BitConfig, t: u64, n: u16, q: u16)
    requires ValidLayout(bc)
    requires t < TWO_42 && n < NodeRadix(bc) && q < SequenceRadix(bc)
    ensures Pack(bc, t, n, q) == (t * NodeRadix(bc) + n) * SequenceRadix(bc) + q
  {
    PackArith(bc, t, n, q);
    ModSmall(t, TWO_42);
    ModSmall(n, NodeRadix(bc));
    ModSmall(q, SequenceRadix(bc));
  }

  /** The other direction: every 64-bit word is the packing of its own fields, so no
      bit of an identifier lies outside the three fields. */
  lemma PackExtract(bc: BitConfig, x: u64)
    requires ValidLayout(bc)
    ensures var f := Extract(bc, x); Pack(bc, f.timestamp, f.node, f.sequence) == x
  {
    var f := Extract(bc, x);
    ExtractDigits(bc, x);
    PackInRange(bc, f.timestamp, f.node, f.sequence);
  }

  /** The extracted fields are the digits of the word. */
  lemma ExtractDigits(bc: BitConfig, x: u64)
    requires ValidLayout(bc)
    ensures var f := Extract(bc, x);
            x == (f.timestamp * NodeRadix(bc) + f.node) * SequenceRadix(bc) + f.sequence
  {
    var f := Extract(bc, x);
    ExtractTimestampArith(bc, x);
    ExtractNodeArith(bc, x);
    ExtractSequenceArith(bc, x);
    ValidWidths(bc);
    UndigitsOf(x, f.timestamp, f.node, f.sequence, NodeRadix(bc), SequenceRadix(bc), TWO_22);
  }

  /** Identifiers with the same node order lexicographically by (timestamp, sequence):
      this is what makes numeric order chronological. */
  lemma PackOrder(bc: BitConfig, n: u16, t1: u64, q1: u16, t2: u64, q2: u16)
    requires ValidLayout(bc)
    requires n <= bc.nodeMask
    requires t1 <= bc.timestampMask && t2 <= bc.timestampMask
    requires q1 <= bc.sequenceMask && q2 <= bc.sequenceMask
    ensures Pack(bc, t1, n, q1) < Pack(bc, t2, n, q2) <==> t1 < t2 || (t1 == t2 && q1 < q2)
  {
    var pn, ps := NodeRadix(bc), SequenceRadix(bc);
    PackOffsets(bc, t1, n, q1);
    PackOffsets(bc, t2, n, q2);
    ModSmall(t1, TWO_42);
    ModSmall(t2, TWO_42);
    ModSmall(q1, ps);
    ModSmall(q2, ps);
  }

  /** `(1u64 << k) - 1`: the low `k` bits set. */
  function LowMask64(k: nat): (r: u64)
    requires k < 64
    ensures r == Pow2(k) - 1
  {
    Pow2Of64();
    Pow2Strict(k, 64);
    ShlNoWrap(1, k, U64_LIMIT, Pow2(k));
    Shl64(1, k) - 1
  }

  /** The sequence mask and the shifted node mask together fill the low 22 bits. */
  lemma LowFieldsCover(bc: BitConfig)
    requires ValidLayout(bc)
    ensures Or64(LowMask64(SequenceBitsOf(bc)), Shl64(LowMask64(NodeBitsOf(bc)), bc.nodeShift))
            == TWO_22 - 1
  {
    ValidWidths(bc);
    MaskPair(LowMask64(SequenceBitsOf(bc)), LowMask64(NodeBitsOf(bc)),
             NodeRadix(bc), SequenceRadix(bc), SequenceBitsOf(bc));
  }

  /** The union of the three field masks (formed as the source's layout test forms it)
      is all 64 bits, and the field widths sum to 64. */
  lemma FieldsCoverWord(bc: BitConfig)
    requires ValidLayout(bc)
    ensures TIMESTAMP_BITS as int + NodeBitsOf(bc) + SequenceBitsOf(bc) == 64
    ensures Or64(Or64(LowMask64(SequenceBitsOf(bc)),
                      Shl64(LowMask64(NodeBitsOf(bc)), bc.nodeShift)),
                 Shl64(LowMask64(TIMESTAMP_BITS as nat), bc.timestampShift))
            == U64_LIMIT - 1
  {
    LowFieldsCover(bc);
    var tm := LowMask64(42);
    assert tm == TWO_42 - 1 by { Pow2Of42(); }
    assert Shl64(tm, bc.timestampShift) == tm * TWO_22 by {
      Pow2Of22();
      ShlNoWrap(tm, 22, U64_LIMIT, TWO_22);
    }
    Pow2Of22();
    OrComm(TWO_22 - 1, tm * TWO_22);
    OrField(tm, TWO_22 - 1, 22, TWO_22);
  }

  /** The default configuration gives 1023 nodes and 4095 sequences per tick. */
  lemma DefaultLayout()
    ensures var r := CreateBitConfig(Default());
            r.Ok? && r.value.nodeMask == 1023 && r.value.sequenceMask == 4095
            && r.value.nodeShift == 12 && r.value.timestampShift == 22
  {
    var c := Default();
    var r := CreateBitConfig(c);
    Pow2Of10();
    Pow2Of12();
    assert SequenceBitsOf(r.value) == 12 && NodeBitsOf(r.value) == 10;
  }

  /** Node width 12 gives 4095 nodes and 1023 sequences per tick. */
  lemma WideNodeLayout()
    ensures var b := NodeBits(Builder(), 12);
            b.Ok? && var r := CreateBitConfig(Build(b.value));
            r.Ok? && r.value.nodeMask == 4095 && r.value.sequenceMask == 1023
  {
    var c := Build(NodeBits(Builder(), 12).value);
    assert c.nodeBits == 12 && c.sequenceBits == 10;
    Pow2Of10();
    Pow2Of12();
  }

  /** Node widths the builder accepts but the `u16` masks cannot hold. */
  lemma NarrowOrWideNodeBitsPanic(bits: u8)
    requires 1 <= bits <= 20
    requires bits < 7 || bits > 15
    ensures var b := NodeBits(Builder(), bits);
            b.Ok? && CreateBitConfig(Build(b.value)) == Panic(ShiftOverflow)
  {
  }
}

=== FILE: outcome.dfy ===
/** The panics of the Rust source, as values. Every `assert!` and every
    arithmetic overflow check that can fire in the modelled code becomes a
    `Panic` carrying the reason, so that a caller's error path is part of the
    model rather than excluded by a precondition. */
module Outcome {

  datatype Fault =
    | NodeBitsOutOfRange   // builder `node_bits` outside 1..20
    | ShiftOverflow        // `1 << bits` on a u16 with bits >= 16
    | NodeIdOutOfRange     // `with_config` with node_id above max_node

  datatype Result<+T> = Ok(value: T) | Panic(fault: Fault)
}

=== FILE: trace.dfy ===
/** Sequences of `generate` loop iterations and the guarantees the generator gives
    across them: identifiers strictly increase, each carries the generator's node, and
    generators on different nodes never issue the same identifier.

    Clock readings are parameters. The ordering results assume every reading, and the
    generator's last timestamp, fits the 42-bit timestamp field; a larger reading is cut
    to 42 bits by the masking in `create_tsid` and can make an identifier smaller. They
    also assume the sequence counter is never incremented from 0xFFFF on the same tick
    (`NoWrap`): a wrapping `fetch_add` restarts the counter, after which the tick's
    identifiers are issued again (lemma `WrapReissuesId`). `GuardedStep` is the
    iteration that leaves an exhausted counter alone; with it no such condition is
    needed (lemma `GuardedRunIncreasing`). */
module Trace {
  import opened Bits
  import opened Layout
  import opened Generator

  /** The identifiers emitted while stepping through some readings, and the final state. */
  datatype RunResult = RunResult(gen: TsidGenerator, ids: seq<u64>)

  /** The largest of `last` and the readings: where the last timestamp ends up. */
  function MaxReading(last: u64, clocks: seq<u64>): (m: u64)
    ensures m >= last
    ensures forall i :: 0 <= i < |clocks| ==> clocks[i] <= m
    ensures m == last || exists i :: 0 <= i < |clocks| && clocks[i] == m
    decreases |clocks|
  {
    if |clocks| == 0 then last
    else
      var m := MaxReading(if clocks[0] > last then clocks[0] else last, clocks[1..]);
      assert forall i :: 1 <= i < |clocks| ==> clocks[i] == clocks[1..][i - 1];
      m
  }

  /** The identifiers an attempt contributes: one if it emitted, none if it retried. */
  function Emitted(a: Attempt): (ids: seq<u64>)
    ensures a.Emit? ==> ids == [a.id]
    ensures a.Retry? ==> ids == []
  {
    if a.Emit? then [a.id] else []
  }

  /** Loop iterations with the given readings, one reading each, collecting every
      emitted identifier. A `generate` call is a prefix of such a run that ends at its
      first emission (lemma `GenerateIsRun`). */
  function Run(g: TsidGenerator, clocks: seq<u64>): (r: RunResult)
    requires Valid(g)
    ensures Valid(r.gen) && SameIdentity(g, r.gen)
    ensures r.gen.lastTimestamp == MaxReading(g.lastTimestamp, clocks)
    ensures |r.ids| <= |clocks|
    decreases |clocks|
  {
    if |clocks| == 0 then RunResult(g, [])
    else
      var s := Step(g, clocks[0]);
      var rest := Run(s.gen, clocks[1..]);
      RunResult(rest.gen, Emitted(s.attempt) + rest.ids)
  }

  predicate AllBelow(clocks: seq<u64>, bound: nat) {
    forall i :: 0 <= i < |clocks| ==> clocks[i] < bound
  }

  predicate StrictlyIncreasing(ids: seq<u64>) {
    forall i, j :: 0 <= i < j < |ids| ==> ids[i] < ids[j]
  }

  /** The counter is never fetched at 0xFFFF on the same tick during the run, so the
      wrapping `fetch_add` never brings it back to 0. */
  predicate NoWrap(g: TsidGenerator, clocks: seq<u64>)
    requires Valid(g)
    decreases |clocks|
  {
    |clocks| == 0
    || ((clocks[0] <= g.lastTimestamp ==> g.sequence < U16_LIMIT - 1)
        && NoWrap(Step(g, clocks[0]).gen, clocks[1..]))
  }

  /** The counter capped at the largest sequence: the sequence of the identifier issued
      last on the current tick. */
  function CappedSequence(g: TsidGenerator): (q: u16)
    requires Valid(g)
    ensures q <= MaxSequence(g)
  {
    if g.sequence < MaxSequence(g) then g.sequence else MaxSequence(g)
  }

  /** The identifier with the last timestamp and the capped counter. Every identifier
      emitted so far is at most this one, and every later one is above it. */
  function Bound(g: TsidGenerator): u64
    requires Valid(g)
  {
    CreateTsid(g, g.lastTimestamp, CappedSequence(g))
  }

  /** One loop iteration never lowers the bound, and an emitted identifier lies strictly
      above the old bound and becomes the new one. */
  lemma StepBound(g: TsidGenerator, clock: u64)
    requires Valid(g) && g.lastTimestamp < TWO_42 && clock < TWO_42
    requires clock <= g.lastTimestamp ==> g.sequence < U16_LIMIT - 1
    ensures var r := Step(g, clock);
            && Bound(g) <= Bound(r.gen)
            && (r.attempt.Emit? ==> Bound(g) < r.attempt.id == Bound(r.gen))
  {
    if clock > g.lastTimestamp {
      NewTickBound(g, clock);
    } else if g.sequence < MaxSequence(g) {
      SameTickBound(g, clock);
    } else {
      ExhaustedBound(g, clock);
    }
  }

  lemma NewTickBound(g: TsidGenerator, clock: u64)
    requires Valid(g) && g.lastTimestamp < clock < TWO_42
    ensures Step(g, clock).attempt.Emit?
    ensures Bound(g) < Step(g, clock).attempt.id == Bound(Step(g, clock).gen)
  {
    CreateTsidOrder(g, g.lastTimestamp, CappedSequence(g), clock, 0);
  }

  lemma SameTickBound(g: TsidGenerator, clock: u64)
    requires Valid(g) && clock <= g.lastTimestamp < TWO_42 && g.sequence < MaxSequence(g)
    ensures Step(g, clock).attempt.Emit?
    ensures Bound(g) < Step(g, clock).attempt.id == Bound(Step(g, clock).gen)
  {
    NextSequenceBound(g, Step(g, clock).gen);
  }

  /** Moving the counter up by one within the sequence range moves the bound to the
      identifier with that sequence, which is above the old bound. */
  lemma NextSequenceBound(g: TsidGenerator, h: TsidGenerator)
    requires Valid(g) && Valid(h) && SameIdentity(g, h)
    requires h.lastTimestamp == g.lastTimestamp < TWO_42
    requires g.sequence < MaxSequence(g) && h.sequence == g.sequence + 1
    ensures Bound(g) < CreateTsid(g, g.lastTimestamp, g.sequence + 1) == Bound(h)
  {
    CreateTsidOrder(g, g.lastTimestamp, g.sequence, g.lastTimestamp, g.sequence + 1);
  }

  lemma ExhaustedBound(g: TsidGenerator, clock: u64)
    requires Valid(g) && clock <= g.lastTimestamp && MaxSequence(g) <= g.sequence < U16_LIMIT - 1
    ensures Step(g, clock).attempt.Retry?
    ensures Bound(Step(g, clock).gen) == Bound(g)
  {
    assert CappedSequence(Step(g, clock).gen) == CappedSequence(g);
  }

  /** Over a run in which every reading fits 42 bits and the counter never wraps, the
      emitted identifiers strictly increase, all lie above the starting bound, and none
      exceeds the final bound. */
  lemma {:induction false} RunIncreasing(g: TsidGenerator, clocks: seq<u64>)
    requires Valid(g) && g.lastTimestamp < TWO_42 && AllBelow(clocks, TWO_42)
    requires NoWrap(g, clocks)
    ensures var r := Run(g, clocks);
            && StrictlyIncreasing(r.ids)
            && Bound(g) <= Bound(r.gen)
            && forall i :: 0 <= i < |r.ids| ==> Bound(g) < r.ids[i] <= Bound(r.gen)
    decreases |clocks|
  {
    if |clocks| > 0 {
      var s := Step(g, clocks[0]);
      var rest := Run(s.gen, clocks[1..]);
      StepBound(g, clocks[0]);
      AllBelowTail(clocks, TWO_42);
      RunIncreasing(s.gen, clocks[1..]);
      if s.attempt.Emit? {
        Prepend(s.attempt.id, rest.ids, Bound(g), Bound(rest.gen));
      }
    }
  }

  lemma AllBelowTail(clocks: seq<u64>, bound: nat)
    requires |clocks| > 0 && AllBelow(clocks, bound)
    ensures clocks[0] < bound && AllBelow(clocks[1..], bound)
  {
    assert forall i :: 0 <= i < |clocks[1..]| ==> clocks[1..][i] == clocks[i + 1];
  }

  /** An identifier above `lo` put in front of larger ones keeps the list increasing. */
  lemma Prepend(x: u64, ids: seq<u64>, lo: int, hi: int)
    requires lo < x <= hi
    requires StrictlyIncreasing(ids) && forall i :: 0 <= i < |ids| ==> x < ids[i] <= hi
    ensures StrictlyIncreasing([x] + ids)
    ensures forall i :: 0 <= i < |[x] + ids| ==> lo < ([x] + ids)[i] <= hi
  {
    var xs := [x] + ids;
    forall i, j | 0 <= i < j < |xs| ensures xs[i] < xs[j] {
      assert xs[j] == ids[j - 1];
      if i > 0 {
        assert xs[i] == ids[i - 1];
      }
    }
  }

  /** Every identifier in `ids` lies above `lo`. */
  predicate AllAbove(ids: seq<u64>, lo: int) {
    forall i :: 0 <= i < |ids| ==> lo < ids[i]
  }

  /** An identifier between `lo` and `mid` put in front of increasing identifiers above
      `mid` keeps the list increasing and above `lo`. */
  lemma PrependBelow(x: u64, ids: seq<u64>, lo: int, mid: int)
    requires lo < x <= mid
    requires StrictlyIncreasing(ids) && AllAbove(ids, mid)
    ensures StrictlyIncreasing([x] + ids) && AllAbove([x] + ids, lo)
  {
    Prepend(x, ids, lo, U64_LIMIT);
  }

  /** A run shorter than the distance from the counter to 0xFFFF cannot wrap it. */
  lemma {:induction false} ShortRunNoWrap(g: TsidGenerator, clocks: seq<u64>)
    requires Valid(g) && g.sequence + |clocks| < U16_LIMIT
    ensures NoWrap(g, clocks)
    decreases |clocks|
  {
    if |clocks| > 0 {
      ShortRunNoWrap(Step(g, clocks[0]).gen, clocks[1..]);
    }
  }

  /** A freshly constructed generator (timestamp 0, counter 0) issues strictly increasing
      nonzero identifiers over up to 65535 iterations whose readings fit 42 bits. */
  lemma FreshGeneratorIncreasing(g: TsidGenerator, clocks: seq<u64>)
    requires Valid(g) && AtStart(g)
    requires AllBelow(clocks, TWO_42) && |clocks| < U16_LIMIT
    ensures StrictlyIncreasing(Run(g, clocks).ids)
    ensures forall i :: 0 <= i < |Run(g, clocks).ids| ==> Run(g, clocks).ids[i] > 0
  {
    ShortRunNoWrap(g, clocks);
    RunIncreasing(g, clocks);
  }

  // ---------------------------------------------------------------------------
  // Node field and uniqueness across nodes

  /** Every identifier in `ids` decodes, under layout `bc`, to node `node`. */
  predicate OnNode(bc: BitConfig, node: u16, ids: seq<u64>)
    requires ValidLayout(bc)
  {
    forall i :: 0 <= i < |ids| ==> Extract(bc, ids[i]).node == node
  }

  /** An identifier emitted by one loop iteration carries the generator's node. */
  lemma StepOnNode(g: TsidGenerator, clock: u64)
    requires Valid(g)
    ensures Step(g, clock).attempt.Emit? ==>
              Extract(g.bitConfig, Step(g, clock).attempt.id).node == g.nodeId
  {
    if clock > g.lastTimestamp {
      StepAdvancesTick(g, clock);
    } else if g.sequence < MaxSequence(g) {
      StepSameTick(g, clock);
    }
  }

  /** Every identifier a run emits decodes to the generator's node identifier, whatever
      the readings and even if the counter wraps. */
  lemma {:induction false} RunOnNode(g: TsidGenerator, clocks: seq<u64>)
    requires Valid(g)
    ensures OnNode(g.bitConfig, g.nodeId, Run(g, clocks).ids)
    decreases |clocks|
  {
    if |clocks| > 0 {
      var s := Step(g, clocks[0]);
      var rest := Run(s.gen, clocks[1..]);
      StepOnNode(g, clocks[0]);
      RunOnNode(s.gen, clocks[1..]);
      if s.attempt.Emit? {
        PrependOnNode(g.bitConfig, g.nodeId, s.attempt.id, rest.ids);
      }
    }
  }

  lemma PrependOnNode(bc: BitConfig, node: u16, x: u64, ids: seq<u64>)
    requires ValidLayout(bc) && Extract(bc, x).node == node && OnNode(bc, node, ids)
    ensures OnNode(bc, node, [x] + ids)
  {
    var xs := [x] + ids;
    forall i | 0 <= i < |xs| ensures Extract(bc, xs[i]).node == node {
      if i > 0 {
        assert xs[i] == ids[i - 1];
      }
    }
  }

  /** Two generators with the same configuration and different node identifiers never
      issue a common identifier, whatever readings either of them sees. */
  lemma DistinctNodesDistinctIds(g1: TsidGenerator, clocks1: seq<u64>, g2: TsidGenerator, clocks2: seq<u64>)
    requires Valid(g1) && Valid(g2) && g1.config == g2.config && g1.nodeId != g2.nodeId
    ensures var ids1, ids2 := Run(g1, clocks1).ids, Run(g2, clocks2).ids;
            forall i, j :: 0 <= i < |ids1| && 0 <= j < |ids2| ==> ids1[i] != ids2[j]
  {
    assert g1.bitConfig == g2.bitConfig;
    RunOnNode(g1, clocks1);
    RunOnNode(g2, clocks2);
  }

  // ---------------------------------------------------------------------------
  // `generate` calls as pieces of a run

  /** A `generate` call that returns is the run over the readings it consumed: that run
      emits exactly the returned identifier and ends in the returned state. */
  lemma {:induction false} GenerateIsRun(g: TsidGenerator, clocks: seq<u64>)
    requires Valid(g) && Generate(g, clocks).Generated?
    ensures var r := Generate(g, clocks);
            Run(g, clocks[..|clocks| - |r.rest|]) == RunResult(r.gen, [r.id])
    decreases |clocks|
  {
    var c := clocks[0];
    var s := Step(g, c);
    if s.attempt.Emit? {
      assert clocks[..1] == [c];
      RunEmitFirst(g, c);
    } else {
      GenerateIsRun(s.gen, clocks[1..]);
      var r := Generate(s.gen, clocks[1..]);
      var k := |clocks| - |r.rest|;
      SliceCons(clocks, k);
      RunRetryFirst(g, c, clocks[1..][..k - 1]);
    }
  }

  /** A prefix of a sequence is its head followed by a prefix of its tail. */
  lemma SliceCons(xs: seq<u64>, k: nat)
    requires 1 <= k <= |xs|
    ensures xs[..k] == [xs[0]] + xs[1..][..k - 1]
  {
  }

  /** A `generate` call that runs out of readings emitted nothing along the way. */
  lemma {:induction false} SpinningIsSilentRun(g: TsidGenerator, clocks: seq<u64>)
    requires Valid(g) && Generate(g, clocks).Spinning?
    ensures Run(g, clocks) == RunResult(Generate(g, clocks).gen, [])
    decreases |clocks|
  {
    if |clocks| > 0 {
      var c := clocks[0];
      assert clocks == [c] + clocks[1..];
      SpinningIsSilentRun(Step(g, c).gen, clocks[1..]);
      RunRetryFirst(g, c, clocks[1..]);
    }
  }

  /** A first reading that makes the loop emit yields exactly that identifier. */
  lemma RunEmitFirst(g: TsidGenerator, c: u64)
    requires Valid(g) && Step(g, c).attempt.Emit?
    ensures Run(g, [c]) == RunResult(Step(g, c).gen, [Step(g, c).attempt.id])
  {
  }

  /** A first reading that makes the loop retry contributes nothing but the new state. */
  lemma RunRetryFirst(g: TsidGenerator, c: u64, xs: seq<u64>)
    requires Valid(g) && Step(g, c).attempt.Retry?
    ensures Run(g, [c] + xs) == Run(Step(g, c).gen, xs)
  {
    assert ([c] + xs)[1..] == xs;
  }


  /** Prefix slices of readings that fit a bound still fit it. */
  lemma AllBelowSlice(clocks: seq<u64>, bound: nat, i: nat, j: nat)
    requires i <= j <= |clocks| && AllBelow(clocks, bound)
    ensures AllBelow(clocks[i..j], bound)
  {
    assert forall k :: 0 <= k < j - i ==> clocks[i..j][k] == clocks[i + k];
  }

  /** A run that does not wrap the counter has no prefix that does. */
  lemma {:induction false} NoWrapPrefix(g: TsidGenerator, clocks: seq<u64>, k: nat)
    requires Valid(g) && k <= |clocks| && NoWrap(g, clocks)
    ensures NoWrap(g, clocks[..k])
    decreases k
  {
    if k > 0 {
      assert clocks[..k][0] == clocks[0];
      assert clocks[..k][1..] == clocks[1..][..k - 1];
      NoWrapPrefix(Step(g, clocks[0]).gen, clocks[1..], k - 1);
    }
  }

  /** One `generate` call over readings that fit 42 bits, on which the counter does not
      wrap, returns an identifier above the starting bound and at most the bound it
      leaves behind. */
  lemma GenerateBound(g: TsidGenerator, clocks: seq<u64>)
    requires Valid(g) && g.lastTimestamp < TWO_42 && AllBelow(clocks, TWO_42)
    requires NoWrap(g, clocks)
    ensures var a := Generate(g, clocks);
            a.Generated? ==> Bound(g) < a.id <= Bound(a.gen)
  {
    var a := Generate(g, clocks);
    if a.Generated? {
      var p := clocks[..|clocks| - |a.rest|];
      GenerateIsRun(g, clocks);
      AllBelowSlice(clocks, TWO_42, 0, |p|);
      NoWrapPrefix(g, clocks, |p|);
      RunIncreasing(g, p);
      assert Run(g, p).ids[0] == a.id;
    }
  }

  /** After such a call the preconditions of `GenerateBound` still hold for the readings
      left over: the last timestamp fits 42 bits and the counter does not wrap on them. */
  lemma {:induction false} GenerateLeavesRoom(g: TsidGenerator, clocks: seq<u64>)
    requires Valid(g) && g.lastTimestamp < TWO_42 && AllBelow(clocks, TWO_42)
    requires NoWrap(g, clocks)
    ensures var a := Generate(g, clocks);
            a.Generated? ==>
              && a.gen.lastTimestamp < TWO_42 && AllBelow(a.rest, TWO_42)
              && NoWrap(a.gen, a.rest)
    decreases |clocks|
  {
    if |clocks| > 0 {
      AllBelowTail(clocks, TWO_42);
      var s := Step(g, clocks[0]);
      if s.attempt.Retry? {
        GenerateLeavesRoom(s.gen, clocks[1..]);
      }
    }
  }

  /** What `n` consecutive `generate` calls on one stream of readings return: the
      identifiers in order, the final state and the readings left. A call still
      spinning when the readings run out never returns, so no later call is made. */
  datatype CallsResult = CallsResult(gen: TsidGenerator, ids: seq<u64>, rest: seq<u64>)

  function GenerateCalls(g: TsidGenerator, clocks: seq<u64>, n: nat): (r: CallsResult)
    requires Valid(g)
    ensures Valid(r.gen) && SameIdentity(g, r.gen)
    ensures |r.ids| <= n && |r.rest| <= |clocks|
    decreases n
  {
    if n == 0 then CallsResult(g, [], clocks)
    else
      var a := Generate(g, clocks);
      if a.Spinning? then CallsResult(a.gen, [], [])
      else
        var more := GenerateCalls(a.gen, a.rest, n - 1);
        CallsResult(more.gen, [a.id] + more.ids, more.rest)
  }

  /** Consecutive `generate` calls over readings that fit 42 bits, on which the counter
      never wraps, return strictly increasing identifiers, all above the starting bound. */
  lemma {:induction false} GenerateCallsIncreasing(g: TsidGenerator, clocks: seq<u64>, n: nat)
    requires Valid(g) && g.lastTimestamp < TWO_42 && AllBelow(clocks, TWO_42)
    requires NoWrap(g, clocks)
    ensures var r := GenerateCalls(g, clocks, n);
            StrictlyIncreasing(r.ids) && AllAbove(r.ids, Bound(g))
    decreases n
  {
    if n > 0 {
      var a := Generate(g, clocks);
      if a.Generated? {
        var lo, mid := Bound(g), Bound(a.gen);
        GenerateBound(g, clocks);
        GenerateLeavesRoom(g, clocks);
        GenerateCallsIncreasing(a.gen, a.rest, n - 1);
        var more := GenerateCalls(a.gen, a.rest, n - 1);
        assert lo < a.id <= mid;
        assert StrictlyIncreasing(more.ids) && AllAbove(more.ids, mid);
        PrependBelow(a.id, more.ids, lo, mid);
      }
    }
  }

  /** The same for a stream of fewer readings than the distance from the counter to
      0xFFFF, which cannot wrap the counter. */
  lemma ShortGenerateCallsIncreasing(g: TsidGenerator, clocks: seq<u64>, n: nat)
    requires Valid(g) && g.lastTimestamp < TWO_42 && AllBelow(clocks, TWO_42)
    requires g.sequence + |clocks| < U16_LIMIT
    ensures StrictlyIncreasing(GenerateCalls(g, clocks, n).ids)
  {
    ShortRunNoWrap(g, clocks);
    GenerateCallsIncreasing(g, clocks, n);
  }

  // ---------------------------------------------------------------------------
  // What happens when the counter wraps

  /** The same reading `n` times over. */
  function Repeat(t: u64, n: nat): (r: seq<u64>)
    ensures |r| == n && forall i :: 0 <= i < n ==> r[i] == t
  {
    seq(n, _ => t)
  }

  /** With the clock stuck at or behind the last timestamp, each iteration moves the
      counter up by one and leaves the rest of the state alone, as long as it stays
      below 0xFFFF. */
  lemma {:induction false} CounterClimbs(g: TsidGenerator, t: u64, n: nat)
    requires Valid(g) && t <= g.lastTimestamp && g.sequence + n < U16_LIMIT
    ensures Run(g, Repeat(t, n)).gen == g.(sequence := g.sequence + n)
    decreases n
  {
    if n > 0 {
      var h := Step(g, t).gen;
      assert h == g.(sequence := g.sequence + 1);
      assert Repeat(t, n)[1..] == Repeat(t, n - 1);
      CounterClimbs(h, t, n - 1);
    }
  }

  /** With every reading `c` at or behind the last timestamp `t` (the clock held at `t`
      or stepped back), a generator that has just started tick `t` (counter 0) emits
      sequence 1 of tick `t` next. After 65535 iterations in all, that one included, the
      counter reaches 0xFFFF; one more iteration retries and wraps it back to 0, and the
      state is exactly the starting one again: the next iteration issues the same
      identifier a second time. */
  lemma WrapReissuesId(g: TsidGenerator, t: u64, c: u64)
    requires Valid(g) && g.lastTimestamp == t && g.sequence == 0 && c <= t
    ensures Step(g, c).attempt == Emit(CreateTsid(g, t, 1))
    ensures var h := Run(g, Repeat(c, U16_LIMIT - 1)).gen;
            && h.sequence == U16_LIMIT - 1
            && Step(h, c).attempt.Retry?
            && Step(h, c).gen == g
  {
    CounterClimbs(g, c, U16_LIMIT - 1);
  }

  // ---------------------------------------------------------------------------
  // A loop iteration that leaves an exhausted counter alone

  /** The loop iteration with the counter left unchanged, instead of incremented, once it
      has reached the largest sequence on the current tick. Every other iteration is
      `Step`'s. */
  function GuardedStep(g: TsidGenerator, clock: u64): (r: StepResult)
    requires Valid(g)
    ensures Valid(r.gen) && SameIdentity(g, r.gen)
    ensures g.sequence <= MaxSequence(g) ==> r.gen.sequence <= MaxSequence(g)
    ensures clock > g.lastTimestamp || g.sequence < MaxSequence(g) ==> r == Step(g, clock)
    ensures r.attempt.Retry? ==> r.gen == g
  {
    if clock <= g.lastTimestamp && g.sequence >= MaxSequence(g) then StepResult(g, Retry)
    else Step(g, clock)
  }

  /** `Run` with `GuardedStep` in place of `Step`. */
  function GuardedRun(g: TsidGenerator, clocks: seq<u64>): (r: RunResult)
    requires Valid(g)
    ensures Valid(r.gen) && SameIdentity(g, r.gen)
    ensures |r.ids| <= |clocks|
    decreases |clocks|
  {
    if |clocks| == 0 then RunResult(g, [])
    else
      var s := GuardedStep(g, clocks[0]);
      var rest := GuardedRun(s.gen, clocks[1..]);
      RunResult(rest.gen, Emitted(s.attempt) + rest.ids)
  }

  /** The guarded iteration keeps `StepBound`'s guarantee with no condition on the counter. */
  lemma GuardedStepBound(g: TsidGenerator, clock: u64)
    requires Valid(g) && g.lastTimestamp < TWO_42 && clock < TWO_42
    ensures var r := GuardedStep(g, clock);
            && Bound(g) <= Bound(r.gen)
            && (r.attempt.Emit? ==> Bound(g) < r.attempt.id == Bound(r.gen))
  {
    if clock > g.lastTimestamp || g.sequence < MaxSequence(g) {
      StepBound(g, clock);
    }
  }

  /** With the guard, identifiers strictly increase over every run whose readings fit
      42 bits, however long it spins on a stalled or regressed clock. */
  lemma {:induction false} GuardedRunIncreasing(g: TsidGenerator, clocks: seq<u64>)
    requires Valid(g) && g.lastTimestamp < TWO_42 && AllBelow(clocks, TWO_42)
    ensures var r := GuardedRun(g, clocks);
            && StrictlyIncreasing(r.ids)
            && Bound(g) <= Bound(r.gen) && r.gen.lastTimestamp < TWO_42
            && forall i :: 0 <= i < |r.ids| ==> Bound(g) < r.ids[i] <= Bound(r.gen)
    decreases |clocks|
  {
    if |clocks| > 0 {
      var s := GuardedStep(g, clocks[0]);
      var rest := GuardedRun(s.gen, clocks[1..]);
      GuardedStepBound(g, clocks[0]);
      AllBelowTail(clocks, TWO_42);
      GuardedRunIncreasing(s.gen, clocks[1..]);
      if s.attempt.Emit? {
        Prepend(s.attempt.id, rest.ids, Bound(g), Bound(rest.gen));
      }
    }
  }
}
